=== FILE: README.md ===
# Kotlin data-layer generators: name and signature derivation

Two Python scripts read a YAML API description and write Kotlin source.
The description is a `features` list. Each feature has an endpoint, an HTTP
method and, optionally, an `action`, `queryParams`, a `request` schema and a
`response` schema. This project models, in Dafny, the part of both scripts
that derives identifiers and lists from those features:

- Kotlin type names;
- DTO class names and property lists;
- endpoint constant names;
- path parameters;
- parameter and call-argument lists;
- method names;
- resource groupings;
- mapper names.

It does not model the text they render.

The two scripts name things differently:

- `test/generate-data-layer.py` uses **endpoint-segment naming**. The resource
  is `capitalize(endpoint.split("/")[1])`. Features are grouped by resource
  into Retrofit interfaces (`…Endpoints`), remote data sources
  (`…RemoteDataSource`) and repositories (`…Repository`).
- `test/api_codegen.py` uses **feature-label naming**. The resource is a label
  the caller supplies. The script writes one constants object, DTOs and
  mappers, and one data source and one repository. Their methods are named
  by each feature's `action`.

`Derive.Naming` selects between the two strategies. Everything the two
scripts share is modelled once in `Derive`.

Modules, one per file:

| module | file | contents |
|---|---|---|
| `Seqs` | seqs.dfy | first index, first-occurrence de-duplication |
| `Ascii` | ascii.dfy | Python `upper`, `lower`, `capitalize` on ASCII |
| `Strings` | strings.dfy | `split`/`join` on one character, `strip`, `replace`, `str(n)` |
| `OrderedMaps` | ordered_maps.dfy | insertion-ordered `dict` under `d[k] = v` |
| `Features` | features.dfy | the parsed feature records |
| `Derive` | derive.dfy | type table, DTO names and collection, path and query parameters |
| `Grouping` | grouping.dfy | resource grouping of the endpoint-segment script |
| `DataLayer` | data_layer.dfy | endpoint interfaces, data sources, repositories (endpoint-segment) |
| `ApiCodegen` | api_codegen.dfy | constants, mappers, data source and repository (feature label) |
| `Examples` | examples.dfy | worked examples matching the generated Kotlin |

Reading a YAML key that is absent raises `KeyError` or `IndexError` in the
scripts. The model turns each such key into a precondition of the derivation
that reads it:

- `Derive.HasResourceSegment`: the endpoint has a second `/`-piece.
- `Derive.ObjectsHaveProperties`: every object schema the scripts read `properties` from has it. That means the response, the request, and the `items` of an array response. The scripts never read the `items` of a non-array response, so that key is unconstrained.
- `ApiCodegen.Actionable`: every feature has an `action`.

The model proves several behaviours of the scripts as they stand. They are
stated as lemmas, not corrected:

- `GET /users` is named `getUserss`.
- An array response is always declared as `List<…Item>`, even when its items
  are a list and only `…Item1`, `…Item2`, … exist.
- `@Body request` is declared whatever the request's type.
- The data sources of the label-based script return `<label>Dto`, a class
  that is never generated.
- The label-based script writes a mapper for every entry of a list of items
  and for a single item, whatever its type. A non-object entry's mapper
  refers to a DTO that is never generated.

## Model

Source paths are relative to the repository root.

| member | source | states |
|---|---|---|
| Ascii.Upper | test/api_codegen.py:40 | `upper` keeps the length and upper-cases exactly the ASCII lower-case letters, position by position |
| Ascii.Lower | test/generate-data-layer.py:155 | `lower` keeps the length and lower-cases exactly the ASCII upper-case letters, position by position |
| Ascii.Capitalize | test/generate-data-layer.py:144-145 | `capitalize` keeps the length, upper-cases the first character and lower-cases every later one |
| Ascii.CapitalizeShape | test/generate-data-layer.py:144-145 | `capitalize` upper-cases the first character, lower-cases every later one, and leaves no capital after the first |
| Ascii.CapitalizeIgnoresCase | test/generate-data-layer.py:155 | `capitalize` gives the same result for the lower- and upper-cased input, is idempotent, and changes nothing but case |
| Ascii.CaseFoldAbsorbs | test/api_codegen.py:40-41 | `upper` and `lower` each forget the case the string had: upper of lower is upper, lower of upper is lower, both idempotent |
| Ascii.CapitalizeLowerTail | test/generate-data-layer.py:144 | a word with no capital after its first letter only has that letter upper-cased |
| Ascii.LowerFirst | test/api_codegen.py:123 | lower-casing the first character keeps the rest and the length; it undoes an upper-case first letter and changes nothing when the first character is not upper-case |
| Seqs.FirstOccurrences | test/generate-data-layer.py:83-85 | the de-duplicated key list has no repeats, the same members as the input, and keeps the order of first occurrence |
| Seqs.FirstOccurrencesAppend | test/generate-data-layer.py:83-84 | appending a key adds a slot only when the key was not seen before |
| Strings.Split | test/generate-data-layer.py:82 | `split("/")` has at least one piece, no piece holds the separator, and joining the pieces gives the string back |
| Strings.SplitJoin | test/generate-data-layer.py:197 | splitting a join of separator-free pieces gives the pieces back |
| Strings.SplitPrependSep | test/generate-data-layer.py:82 | a leading separator contributes one empty first piece |
| Strings.SplitAppendSep | test/generate-data-layer.py:378 | a trailing separator contributes one empty last piece |
| Strings.StripLeft | test/generate-data-layer.py:378 | `lstrip` drops the longest run of the character at the front and nothing else |
| Strings.StripRight | test/generate-data-layer.py:378 | `rstrip` drops the longest run of the character at the back and nothing else |
| Strings.Strip | test/generate-data-layer.py:378 | `strip("/")` is the slice left between the leading and trailing runs of `/`, and neither end of it is `/` |
| Strings.MapChar | test/api_codegen.py:41 | `replace(c, d)` for single characters changes exactly the positions holding `c` |
| Strings.RemoveChar | test/api_codegen.py:41 | `replace(c, "")` leaves no `c` and keeps every other character that occurs |
| Strings.RemoveCharAppend | test/api_codegen.py:41 | removing a character from a concatenation removes it from each part, so the kept characters stay in order |
| Strings.ReplaceAll | test/generate-data-layer.py:247 | `replace(pat, rep)` leaves a string without an occurrence of `pat` unchanged |
| Strings.ReplaceTrailing | test/generate-data-layer.py:247 | when the only occurrence of `pat` in `s + pat` is the last one, `replace` rewrites just that one |
| Strings.DecimalString | test/generate-data-layer.py:53 | `str(n)` is a non-empty string of digits |
| Strings.DecimalRoundTrip | test/generate-data-layer.py:53 | reading back `str(n)` gives `n` |
| Strings.DecimalInjective | test/generate-data-layer.py:53 | distinct numbers render differently |
| OrderedMaps.Put | test/generate-data-layer.py:47 | `d[k] = v` stores `v` under `k` and leaves other keys alone; a new key goes last, an old key keeps its place |
| OrderedMaps.FromEntries | test/generate-data-layer.py:41-62 | the dictionary built by writing entries in order holds exactly the keys written |
| OrderedMaps.FromEntriesKeyOrder | test/generate-data-layer.py:65 | the dictionary lists its keys in the order of their first write |
| OrderedMaps.FromEntriesLastWins | test/generate-data-layer.py:47 | a key holds the value of its last write |
| Derive.KotlinType | test/generate-data-layer.py:147-155 | `string`, `integer`, `boolean` and `number` in any case map to `String`, `Int`, `Boolean` and `Double`; any other tag keeps its letters, starts without a lower-case letter and has no capital after the first |
| Derive.KotlinTypeIgnoresCase | test/api_codegen.py:346-354 | the type table gives the same type for a tag in any letter case |
| Derive.KotlinTypeIdempotent | test/generate-data-layer.py:147-155 | a derived Kotlin type maps to itself |
| Derive.KotlinTypeNamesFixed | test/generate-data-layer.py:149-154 | the four primitive Kotlin types map to themselves |
| Derive.CapitalizedTypeFixed | test/generate-data-layer.py:155 | an unknown tag maps to its capitalized form, which maps to itself |
| Derive.DtoName | test/generate-data-layer.py:142-145 | a DTO name is the resource prefix, then the method capitalized (equal to it up to case, first letter not lower-case, no capital after it), then the suffix |
| Derive.DtoNameDeterminism | test/generate-data-layer.py:142-145 | a DTO name depends only on the method up to case, the suffix and, under segment naming, the first path segment up to case |
| Derive.DtoNameSuffixDistinct | test/generate-data-layer.py:145 | one feature's DTOs with different role suffixes have different names |
| Derive.ItemSuffixInjective | test/generate-data-layer.py:53 | different item positions give different `Item{i+1}` suffixes |
| Derive.ObjectPositions | test/generate-data-layer.py:51-52 | the positions of the object entries: in range, strictly increasing, and every object entry is among them |
| Derive.ItemListDtos | test/generate-data-layer.py:49-54 | a list of items yields a DTO for each object entry, numbered by its position among all entries, and no other DTO |
| Derive.ItemListDtosOrder | test/generate-data-layer.py:51-54 | the list DTOs come one per object entry in list order: the `k`-th is named `Item{p+1}` for the `k`-th object position `p` and carries that entry's properties |
| Derive.ItemListStep | test/generate-data-layer.py:51-54 | one more entry adds at most its own item DTO |
| Derive.ResponseDtos | test/generate-data-layer.py:42-57 | an object response gives `…Response` with its properties; a list of items gives the list DTOs; a single object item gives `…Item` with its properties; a non-object single item, an array without items, any other tag or no response give none; the names are distinct and none is `…Request` |
| Derive.RequestDtos | test/generate-data-layer.py:59-62 | a feature has one request DTO exactly when its request is an object, named `…Request` with the request's properties, and none otherwise |
| Derive.FeatureDtoNamesDistinct | test/generate-data-layer.py:41-62 | the DTOs one feature writes have pairwise distinct names, so none overwrites another of the same feature |
| Derive.AllDtosPrefix | test/generate-data-layer.py:41-62 | the DTO writes of the first features are a prefix of the writes of the whole loop |
| Derive.CollectDtos | test/generate-data-layer.py:39-62 | `dto_specs` holds exactly the names of the DTOs the loop writes |
| Derive.CollectDtosOrderAndOverwrite | test/api_codegen.py:61-85 | DTO classes come out in the order of first appearance of their names, each with the properties written last |
| Derive.CollectDtosLastWins | test/generate-data-layer.py:47-62 | a DTO name written last by some entry holds that entry's properties |
| Derive.RequestDtoIffObject | test/generate-data-layer.py:60-62 | a feature's DTOs include the `…Request` name exactly when the request is an object |
| Derive.DtoFields | test/api_codegen.py:358-362 | a DTO class has one field per property, in order, with the property's name and the type table's mapping of its tag, a fixed point of that table |
| Derive.PlaceholderNamesIff | test/generate-data-layer.py:197-201 | a name is a path parameter exactly when `{name}` is a `/`-segment |
| Derive.PlaceholderNamesAppend | test/generate-data-layer.py:198-201 | the parameters of consecutive segment lists concatenate |
| Derive.PathParams | test/generate-data-layer.py:195-201 | the path parameters are exactly the names written `{name}` as a segment of the endpoint |
| Derive.PathParamsGuardRedundant | test/generate-data-layer.py:196 | the `"{" in endpoint` guard does not change the parameters |
| Derive.JoinContains | test/generate-data-layer.py:196 | every character of a segment is a character of the endpoint |
| Derive.PathParamsIgnoreOuterSlashes | test/api_codegen.py:145-165 | stripping the endpoint's outer slashes first does not change its path parameters |
| Derive.LeftSlashesAddNoParams | test/api_codegen.py:145 | leading slashes add no path parameter |
| Derive.RightSlashesAddNoParams | test/api_codegen.py:145 | trailing slashes add no path parameter |
| Derive.PathParamDecls | test/generate-data-layer.py:258-262 | one `name: String` declaration per path parameter, in order |
| Derive.ParamLayout | test/generate-data-layer.py:217-219 | in a list of path, query and request parameters, each part sits at its own offset |
| Derive.QueryParamDecls | test/generate-data-layer.py:204-208 | one nullable declaration per query parameter, in declared order, typed by the type table; none without `queryParams` |
| Derive.QueryParamNames | test/generate-data-layer.py:282-284 | the query argument names are the names of the query declarations |
| Grouping.GroupKey | test/generate-data-layer.py:82 | the group key is the capitalized second `/`-piece followed by the suffix: the piece up to case, first letter not lower-case, no capital after it |
| Grouping.AddToGroup | test/generate-data-layer.py:83-85 | a feature joins the group with its key, and a new key opens a group at the end |
| Grouping.GroupBy | test/generate-data-layer.py:80-85 | the group keys are distinct, and every member has a resource segment |
| Grouping.MembersIff | test/generate-data-layer.py:81-85 | the features gathered under a key are exactly the features with that key |
| Grouping.GroupOrder | test/generate-data-layer.py:80-88 | groups come in the order their key first occurs |
| Grouping.GroupMembers | test/generate-data-layer.py:81-85 | each group holds exactly the features with its key, in specification order |
| Grouping.NewKeyNoMembers | test/generate-data-layer.py:83-84 | no feature has a key without a group |
| Grouping.ExactlyOneGroup | test/generate-data-layer.py:81-85 | every feature lands in exactly one group |
| Grouping.GroupOf | test/generate-data-layer.py:81-85 | every feature lands in some group |
| Grouping.GroupWithKey | test/generate-data-layer.py:82-84 | the key of every feature is the key of some group |
| Grouping.SameGroup | test/generate-data-layer.py:81-85 | a feature found in two groups found it in one group |
| Grouping.InGroupHasKey | test/generate-data-layer.py:82-85 | a member of a group has the group's key |
| Grouping.SuffixCancel | test/generate-data-layer.py:128 | appending the same suffix keeps different keys different |
| Grouping.AddToGroupWithSuffix | test/generate-data-layer.py:105 | adding a feature commutes with suffixing the keys |
| Grouping.GroupBySuffix | test/generate-data-layer.py:126-131 | the `…Endpoints`, `…RemoteDataSource` and `…Repository` groupings are the bare resource grouping with the suffix appended |
| Grouping.KeysEndWithSuffix | test/generate-data-layer.py:128 | every group key ends in the suffix it was built with |
| Grouping.ResourceKeysCapitalized | test/generate-data-layer.py:82 | every bare group key is a capitalized segment, with no capital after its first letter |
| DataLayer.MethodName | test/generate-data-layer.py:376-398 | the method name by lower-cased verb: `get` gives `get…ById` or `get…s`, `post` `create…`, `put` `update…`, `delete` `delete…`, any other verb the lower-cased verb before the resource |
| DataLayer.MethodNamesDistinct | test/generate-data-layer.py:384-395 | the four special verbs give four different method names for one endpoint |
| DataLayer.MethodNameIgnoresCase | test/generate-data-layer.py:384-398 | the method name is the same whatever the case of the verb |
| DataLayer.MethodNameDeterminism | test/generate-data-layer.py:378-398 | the method name depends only on the verb up to case, the first stripped piece up to case, and whether the second piece holds `{` |
| Strings.StripIdempotent | test/generate-data-layer.py:378 | stripping twice is stripping once |
| DataLayer.MethodNameIgnoresOuterSlashes | test/generate-data-layer.py:378 | outer slashes do not change a method name |
| DataLayer.MethodResourceIsSegmentResource | test/generate-data-layer.py:378-381 | for `/resource…`, the method name's resource is the resource the group and DTOs are named after |
| Strings.SplitHeadOfPrefix | test/generate-data-layer.py:378 | trailing slashes do not change the first piece of a non-empty path |
| DataLayer.ReturnType | test/generate-data-layer.py:183-192 | an object response returns its `…Response` DTO, an array response `List<…Item>`, and the type is `Unit` exactly when there is no object or array response |
| DataLayer.ObjectReturnTypeResolves | test/generate-data-layer.py:187-189 | an object response is declared as a DTO the collection generates |
| DataLayer.ArrayReturnTypeResolvesIff | test/generate-data-layer.py:190-192 | an array response is declared `List<…Item>`, and that DTO exists exactly when the items are one object schema |
| DataLayer.Params | test/generate-data-layer.py:194-219 | the parameters are the path parameters as `String`, then the query parameters, then `request: …Request` whenever a request is given |
| DataLayer.CallArgs | test/generate-data-layer.py:273-290 | the forwarding call passes the names of the method's own parameters, in declared order |
| DataLayer.RequestParamResolvesIff | test/generate-data-layer.py:211-214 | the `@Body` parameter's type is a generated DTO exactly when the request is an object |
| DataLayer.Signatures | test/generate-data-layer.py:179-230 | one signature per feature of a group, in order |
| DataLayer.Forwards | test/generate-data-layer.py:250-292 | one forwarding method per feature of a group, in order |
| DataLayer.EndpointInterfaces | test/generate-data-layer.py:88-91 | one interface per `…Endpoints` group, named by its key, in group order |
| DataLayer.DataSources | test/generate-data-layer.py:111-114 | one data source per `…RemoteDataSource` group, holding the interface named by line 247's replace |
| DataLayer.Repositories | test/generate-data-layer.py:134-137 | one repository per `…Repository` group, each name ending in `Repository`, holding the data source its suffix names |
| DataLayer.RepositoriesAsWritten | test/generate-data-layer.py:134-137 | one repository per `…Repository` group, holding the data source that line 312's replace of every `Repository` names |
| DataLayer.RepositoriesAsWrittenAgree | test/generate-data-layer.py:312 | the repository as written equals the corrected one exactly when its resource does not begin with `Repository` |
| DataLayer.RepositoryKeys | test/generate-data-layer.py:128 | every repository group key ends in `Repository` |
| DataLayer.DataSourceOfRepository | test/generate-data-layer.py:312 | the data source a repository means: the `Repository` suffix exchanged for `RemoteDataSource` |
| DataLayer.EndpointsOfDataSource | test/generate-data-layer.py:247 | for a capitalized resource, line 247's replace turns its data-source name into its interface name |
| DataLayer.NoEarlyOccurrence | test/generate-data-layer.py:247 | `RemoteDataSource` cannot start inside a capitalized word it follows |
| DataLayer.ForwardsMatch | test/generate-data-layer.py:289-290 | each forwarding method has the callee's name and passes the callee's parameters in order |
| DataLayer.DataSourcesResolve | test/generate-data-layer.py:247 | each data source holds the interface of its own group and calls its methods with their parameters |
| DataLayer.RepositoriesResolve | test/generate-data-layer.py:354-369 | each repository holds the data source of its own group and calls its methods with their parameters |
| Strings.ReplaceAllLeading | test/generate-data-layer.py:312 | replacing in a string that starts with the pattern starts the result with the replacement |
| DataLayer.DataSourceOfRepositoryAsWrittenIff | test/generate-data-layer.py:312 | as written, the replace finds the right data source exactly when the resource does not begin with `Repository` |
| DataLayer.LeadingRepositoryReplaced | test/generate-data-layer.py:312 | a resource beginning with `Repository` has that prefix replaced too |
| DataLayer.NoEarlyOccurrenceUnlessLeading | test/generate-data-layer.py:312 | `Repository` occurs before the suffix only if the resource begins with it |
| DataLayer.RepositoryResource | test/generate-data-layer.py:128 | `/repository` has the resource `Repository` |
| DataLayer.DataSourceOfRepositoryAsWrittenWrong | test/generate-data-layer.py:312 | for `/repository` the derived data source is not the generated one |
| ApiCodegen.Translate | test/api_codegen.py:41 | the constant-name translation leaves no lower-case letter, slash, dash or brace |
| ApiCodegen.ConstantSuffixTranslates | test/api_codegen.py:41 | the chain of four replaces and `upper` is the one-pass character translation |
| ApiCodegen.ConstantSuffixStep | test/api_codegen.py:41 | the chain acts on the first character on its own |
| ApiCodegen.ConstantName | test/api_codegen.py:39-41 | the constant name is the upper-cased method, `_`, then the translated stripped endpoint, with nothing lower-case after the method |
| ApiCodegen.Constants | test/api_codegen.py:38-42 | one constant per feature, in order, valued by the stripped endpoint |
| ApiCodegen.ReferencedConstantDeclared | test/api_codegen.py:188 | every constant a data-source method refers to is declared with the path that method calls |
| ApiCodegen.TranslateIgnoresCase | test/api_codegen.py:41 | the translation of the lower- or upper-cased endpoint is that of the endpoint |
| ApiCodegen.TranslateDashIsSlash | test/api_codegen.py:41 | writing every `-` as `/` does not change the translation |
| ApiCodegen.TranslateDropsBraces | test/api_codegen.py:41 | removing every `{` or every `}` does not change the translation |
| ApiCodegen.ConstantNameCollisions | test/api_codegen.py:39-41 | features whose methods agree up to case and whose endpoints differ only in case, in `-` against `/`, or in braces get the same constant name |
| ApiCodegen.LabelDtoNamesIgnoreEndpoint | test/api_codegen.py:68-82 | under label naming, features with the same method name their DTOs alike, whatever their endpoints |
| ApiCodegen.DtoNameEnds | test/api_codegen.py:68 | a DTO name ends with the last character of its suffix |
| ApiCodegen.ItemSuffixEnds | test/api_codegen.py:74 | a numbered item suffix ends in a digit |
| ApiCodegen.FeatureDtoNamesEnd | test/api_codegen.py:63-83 | every DTO name of a feature ends as a role suffix does |
| ApiCodegen.AllDtoNamesEnd | test/api_codegen.py:63-83 | every collected DTO name ends as a role suffix does |
| ApiCodegen.DataSourceReturnTypeNotGenerated | test/api_codegen.py:151 | the data-source return type `<label>Dto` is never a generated DTO |
| ApiCodegen.FeatureMapperDtos | test/api_codegen.py:102-111 | no response maps nothing; an object response maps `…Response`; other non-array responses and an array without items map nothing; a list of items maps exactly `…Item{i+1}` for each entry, object or not; a single item maps `…Item` whatever its type; every mapped name ends in `e`, `m` or a digit |
| ApiCodegen.NumberedMapperDtos | test/api_codegen.py:107-109 | the numbered mapped names are exactly `…Item1` to `…Item<n>`, one per list entry |
| ApiCodegen.MapperWithoutDtoListEntry | test/api_codegen.py:107-109 | a list entry that is not an object gets a mapper for `…Item{i+1}`, a DTO the feature never generates |
| ApiCodegen.MapperWithoutDtoSingleItem | test/api_codegen.py:110-111 | a single item that is not an object gets a mapper for `…Item`, a DTO the feature never generates |
| ApiCodegen.MapperDtos | test/api_codegen.py:99-111 | every mapped name was contributed by some feature, and ends in `e`, `m` or a digit, never in the `t` of `Request` |
| ApiCodegen.FeatureMappersIncluded | test/api_codegen.py:101-111 | each feature's mapped names are in the mapper set |
| ApiCodegen.ResponseDtosHaveMappers | test/api_codegen.py:99-111 | every response DTO the script generates has a mapper |
| ApiCodegen.NoRequestMappers | test/api_codegen.py:101-111 | no request DTO has a mapper |
| ApiCodegen.MapperName | test/api_codegen.py:114 | the mapper name is the DTO name followed by `Mapper` |
| ApiCodegen.MapperNamesFresh | test/api_codegen.py:113-114 | a mapper class never takes the name of a mapped or generated DTO |
| ApiCodegen.Receiver | test/api_codegen.py:123 | the extension receiver is the DTO name with its first character lower-cased |
| ApiCodegen.LabelParams | test/api_codegen.py:159-177 | the parameters are the path parameters as `String`, then the query parameters, then `request` only for an object request |
| ApiCodegen.RequestParamResolves | test/api_codegen.py:174-177 | the request parameter's type is a generated DTO |
| ApiCodegen.LabelPathParams | test/api_codegen.py:145-165 | the path parameters of the stripped endpoint are those of the endpoint |
| ApiCodegen.HttpVerb | test/api_codegen.py:187 | the HTTP verb called is the lower-cased method in every case |
| ApiCodegen.DataSourcePassesEveryParam | test/api_codegen.py:159-180 | with the query map emitted for any `GET`, every parameter reaches the HTTP call |
| ApiCodegen.DataSourceArgs | test/api_codegen.py:159-177 | the HTTP call gets the path parameters positionally, then `body = request` for an object request, and no query parameter |
| ApiCodegen.QueryMapAsWritten | test/api_codegen.py:179-180 | the query map as written agrees with the case-insensitive one when emitted, and is missing exactly for a feature with query parameters whose method is `get` in another letter case |
| ApiCodegen.QueryMap | test/api_codegen.py:179-180 | the query map is emitted exactly for a feature with query parameters whose HTTP verb is `get`, and lists the declared query names |
| ApiCodegen.QueryMapAsWrittenDropsGet | test/api_codegen.py:179-180 | as written, `GET` with a query parameter declares it but passes it nowhere |
| ApiCodegen.LabelParamNames | test/api_codegen.py:263-280 | the parameter names are the path, query and request names, in that order |
| ApiCodegen.ArgsLayout | test/api_codegen.py:263-280 | positional, then `name = name`, then named arguments: their values in order, and only the first ones positional |
| ApiCodegen.RepositoryArgsBind | test/api_codegen.py:263-289 | the repository passes each data-source parameter, in order, by the same name |
| ApiCodegen.RepositoryArgs | test/api_codegen.py:263-280 | the repository call passes the path, query and request names in order, only the path ones positionally, each named one as `name = name` |
| ApiCodegen.MethodOf | test/api_codegen.py:148-177 | a method is named by the feature's `action` verbatim and declares the path, query and request names in order |
| ApiCodegen.Methods | test/api_codegen.py:148-190 | one method per feature, named by its `action`, with the feature's parameters |
| ApiCodegen.RepositoryCalls | test/api_codegen.py:257-289 | one data-source call per feature, named by its `action` |
| ApiCodegen.RepositoryCallsResolve | test/api_codegen.py:289 | each repository call names the data-source method of its feature and binds its parameters |
| Examples.CapitalizeExamples | test/generate-data-layer.py:144 | `userId` capitalizes to `Userid` and `GET` to `Get` |
| Examples.ObjectTypeExample | test/generated_code/dtos/UserGetResponse.kt:16 | the tag `object` maps to `Object` |
| Examples.PrimitiveTypeExample | test/generate-data-layer.py:155 | the tag `STRING` maps to `String` |
| ApiCodegen.TranslateAppend | test/api_codegen.py:41 | the translation of a concatenation concatenates the translations |
| ApiCodegen.TranslatePlain | test/api_codegen.py:41 | a word without slash, dash or brace translates to its upper-casing |
| ApiCodegen.TranslateBraces | test/api_codegen.py:41 | braces around a word vanish from its translation |
| Examples.ConstantExampleStatus | test/generated_code/UserApiEndPoint.kt:8 | `patch /users/{userId}/status` is `PATCH_USERS_USERID_STATUS` |
| Examples.ConstantExampleValidate | test/generated_code/UserApiEndPoint.kt:10 | `post /users/validate-email` is `POST_USERS_VALIDATE_EMAIL` |
| Examples.PathParamsExample | test/generate-data-layer.py:426 | `/users/{id}` has the one path parameter `id` |
| Examples.MethodNameById | test/generate-data-layer.py:384-387 | `get /users/{id}` is `getUsersById` |
| Examples.MethodNamePlural | test/generate-data-layer.py:388-389 | `GET /users` is `getUserss` |
| Examples.ObjectResponseIgnoresItems | test/generate-data-layer.py:43-48 | an object response with a property-less object under `items` is accepted and yields only its `…Response` DTO |
| Examples.MapperExample | test/generated_code/mappers/UserGetResponseMapper.kt:6 | the mapper of `UserGetResponse` is `UserGetResponseMapper` |
| Examples.ReceiverResponseExample | test/generated_code/mappers/UserGetResponseMapper.kt:7 | the receiver of `UserGetResponse` is `userGetResponse` |
| Examples.ReceiverItemExample | test/generated_code/mappers/UserGetItemMapper.kt:7 | the receiver of `UserGetItem` is `userGetItem` |

## Left out

- File writing and directory creation are I/O. The model returns names and lists.
- YAML parsing is left out. The model takes parsed `Features.Feature` records.
  - A `properties` mapping is a sequence of fields. A parsed `properties` dict has distinct keys: `yaml.safe_load` keeps the last value of a repeated key. The model does not exclude repeats, so `Derive.DtoFields` on a sequence with a repeated name yields one field per entry, where the parsed dict would hold a single merged field.
  - `items` is either a list or a single schema. Any other value would raise at line 55 of test/generate-data-layer.py.
- An absent key makes the scripts raise. The model turns each absent key into a precondition; it does not model the exception.
- Timestamps (`datetime.now()`) are nondeterministic and appear only in rendered text.
- The command line and `main` are left out. The examples of `main` are restated as lemmas in `Examples`.
- generate-module.py is not part of this model. It writes fixed directory and build templates and derives no names.
- Rendered Kotlin text is left out: imports, `try`/`catch`, the `ApiResponse`/`State` branches and separators. So is the annotation `@Get("…")` at line 222 of test/generate-data-layer.py, which is the capitalized lower-cased verb.
- Mapper file order is left out. `dto_classes` is a Python `set`, whose iteration order is unspecified, and the model keeps it a `set`.
- Case mapping is ASCII only; Unicode case mapping is not modelled.
- DataLayer.Repositories: uses the data source its `Repository` suffix names, the evidently intended reading of line 312 of test/generate-data-layer.py. DataLayer.RepositoriesAsWritten builds the repositories with line 312 as written, and DataLayer.RepositoriesAsWrittenAgree says when the two differ.
- Strings.ReplaceAll: its contract states only that a string without the pattern is unchanged. The other cases the model needs are separate lemmas: Strings.ReplaceTrailing and Strings.ReplaceAllLeading.

## Findings

| source | as written | input that shows it | evidently intended | confidence | as-written member | corrected member |
|---|---|---|---|---|---|---|
| test/generate-data-layer.py:312 | `class_name.replace("Repository", "RemoteDataSource")` replaces every occurrence | endpoint `/repository`: the repository `RepositoryRepository` refers to `IRemoteDataSourceRemoteDataSource`, but the data source generated is `RepositoryRemoteDataSource` | exchange only the trailing `Repository` suffix | high, not executed | DataLayer.DataSourceOfRepositoryAsWrittenWrong | DataLayer.RepositoriesResolve |
| test/api_codegen.py:179 | `feature["method"] == "get"` compares the raw method case-sensitively | a feature with method `GET` and query parameter `limit`: `limit` is declared but sent nowhere | compare the lower-cased method, as line 187 does for the verb | medium, not executed | ApiCodegen.QueryMapAsWrittenDropsGet | ApiCodegen.DataSourcePassesEveryParam |

=== FILE: api_codegen.dfy ===
/** The label-based generator: one endpoint-constants object, the DTOs and
    their mappers named after a caller-supplied feature label, and a remote
    data source and a repository whose methods are named by each feature's
    `action`. The model derives the constant names and values, the mapper
    names, the parameter lists and the call arguments. */
module ApiCodegen {
  import opened Seqs
  import opened Ascii
  import opened Strings
  import opened Features
  import opened Derive

  // ----------------------------------------------------- endpoint constants

  /** `const val name = "value"`. */
  datatype Constant = Constant(name: string, value: string)

  /** The four chained replaces and the upper-casing of the constant name,
      in the order the generator applies them. */
  function ConstantSuffix(path: string): string {
    Upper(RemoveChar(RemoveChar(MapChar(MapChar(path, '/', '_'), '-', '_'), '{'), '}'))
  }

  /** What a single path character becomes in a constant name. */
  function ConstantChars(c: char): string {
    if c == '/' || c == '-' then "_"
    else if c == '{' || c == '}' then ""
    else [UpperChar(c)]
  }

  /** The character-by-character translation of a path into a constant
      name: no lower-case letter, slash, dash or brace survives it. */
  function Translate(s: string): (r: string)
    ensures |r| <= |s|
    ensures forall i :: 0 <= i < |r| ==>
              !IsLower(r[i]) && r[i] != '/' && r[i] != '-' && r[i] != '{' && r[i] != '}'
  {
    if s == [] then [] else ConstantChars(s[0]) + Translate(s[1..])
  }

  /** The chain of replaces is the one-pass translation. */
  lemma {:induction false} ConstantSuffixTranslates(path: string)
    ensures ConstantSuffix(path) == Translate(path)
  {
    if path != [] {
      ConstantSuffixStep(path);
      ConstantSuffixTranslates(path[1..]);
    }
  }

  /** The replaces act on the first character on its own. */
  lemma ConstantSuffixStep(path: string)
    requires |path| > 0
    ensures ConstantSuffix(path) == ConstantChars(path[0]) + ConstantSuffix(path[1..])
  {
    var c := path[0];
    var t := path[1..];
    var c1 := if c == '/' then '_' else c;
    var c2 := if c1 == '-' then '_' else c1;
    var m1 := MapChar(path, '/', '_');
    MapCharCons(path, '/', '_');
    MapCharCons(m1, '-', '_');
    assert m1[1..] == MapChar(t, '/', '_');
    var x := MapChar(MapChar(t, '/', '_'), '-', '_');
    var m2 := MapChar(m1, '-', '_');
    assert m2 == [c2] + x;
    var p1: string := if c2 == '{' then [] else [c2];
    RemoveCharCons(c2, x, '{');
    var y := RemoveChar(x, '{');
    var p2: string := if c2 == '{' || c2 == '}' then [] else [c2];
    RemoveCharCons2(p1, y, '}', p2);
    UpperAppend(p2, RemoveChar(y, '}'));
    assert Upper(p2) == ConstantChars(c);
  }

  /** The endpoint with its outer slashes stripped: the constant's value and
      the path the data source splits. */
  function StrippedEndpoint(f: Feature): string {
    Strip(f.endpoint, '/')
  }

  /** The constant name of a feature, as declared (`generate_endpoint_constants`)
      and as referenced (`generate_remote_datasources`): the upper-cased
      method, `_`, then the translated stripped endpoint. */
  function ConstantName(f: Feature): (r: string)
    ensures r == Upper(f.httpMethod) + "_" + Translate(StrippedEndpoint(f))
    ensures forall i :: |f.httpMethod| < i < |r| ==>
              !IsLower(r[i]) && r[i] != '/' && r[i] != '-' && r[i] != '{' && r[i] != '}'
  {
    ConstantSuffixTranslates(StrippedEndpoint(f));
    Upper(f.httpMethod) + "_" + ConstantSuffix(StrippedEndpoint(f))
  }

  /** The constants object: one constant per feature, in order. */
  function Constants(spec: Specification): (r: seq<Constant>)
    ensures |r| == |spec|
    ensures forall i :: 0 <= i < |spec| ==> r[i] == Constant(ConstantName(spec[i]), StrippedEndpoint(spec[i]))
  {
    seq(|spec|, i requires 0 <= i < |spec| => Constant(ConstantName(spec[i]), StrippedEndpoint(spec[i])))
  }

  /** Every constant a data-source method refers to is declared, with the
      path that method calls as its value. */
  lemma ReferencedConstantDeclared(spec: Specification, i: nat)
    requires i < |spec|
    ensures Constant(ConstantName(spec[i]), StrippedEndpoint(spec[i])) in Constants(spec)
  {
    assert Constants(spec)[i] == Constant(ConstantName(spec[i]), StrippedEndpoint(spec[i]));
  }

  /** The translation ignores the case of letters. */
  lemma {:induction false} TranslateIgnoresCase(s: string)
    ensures Translate(Lower(s)) == Translate(s)
    ensures Translate(Upper(s)) == Translate(s)
  {
    if s != [] {
      assert Lower(s)[1..] == Lower(s[1..]) && Upper(s)[1..] == Upper(s[1..]);
      UpperOfLowerChar(s[0]);
      TranslateIgnoresCase(s[1..]);
    }
  }

  /** The translation cannot tell a dash from a slash. */
  lemma {:induction false} TranslateDashIsSlash(s: string)
    ensures Translate(MapChar(s, '-', '/')) == Translate(s)
  {
    if s != [] {
      MapCharCons(s, '-', '/');
      TranslateDashIsSlash(s[1..]);
    }
  }

  /** The translation cannot tell a brace from its absence. */
  lemma {:induction false} TranslateDropsBraces(s: string)
    ensures Translate(RemoveChar(s, '{')) == Translate(s)
    ensures Translate(RemoveChar(s, '}')) == Translate(s)
  {
    if s != [] {
      RemoveCharCons(s[0], s[1..], '{');
      RemoveCharCons(s[0], s[1..], '}');
      assert [s[0]] + s[1..] == s;
      TranslateDropsBraces(s[1..]);
      TranslateCons(s[0], RemoveChar(s[1..], '{'));
      TranslateCons(s[0], RemoveChar(s[1..], '}'));
    }
  }

  lemma TranslateCons(c: char, t: string)
    ensures Translate([c] + t) == ConstantChars(c) + Translate(t)
  {
    assert ([c] + t)[0] == c && ([c] + t)[1..] == t;
  }

  /** The translation of a concatenation is the concatenation of the
      translations: the constant suffix is computed character by character. */
  lemma {:induction false} TranslateAppend(a: string, b: string)
    ensures Translate(a + b) == Translate(a) + Translate(b)
  {
    if a != [] {
      assert (a + b)[0] == a[0];
      assert (a + b)[1..] == a[1..] + b;
      TranslateAppend(a[1..], b);
      calc {
        Translate(a + b);
        ConstantChars(a[0]) + Translate(a[1..] + b);
        ConstantChars(a[0]) + (Translate(a[1..]) + Translate(b));
        (ConstantChars(a[0]) + Translate(a[1..])) + Translate(b);
      }
    } else {
      assert a + b == b;
    }
  }

  /** No slash, dash or brace in `w`. */
  predicate Plain(w: string) {
    forall i :: 0 <= i < |w| ==> w[i] != '/' && w[i] != '-' && w[i] != '{' && w[i] != '}'
  }

  /** A word without slash, dash or brace translates to its upper-casing. */
  lemma {:induction false} TranslatePlain(w: string)
    requires Plain(w)
    ensures Translate(w) == Upper(w)
  {
    if w != [] {
      TranslatePlain(w[1..]);
      assert Upper(w) == [UpperChar(w[0])] + Upper(w[1..]);
    }
  }

  /** Braces around a word vanish from its translation. */
  lemma TranslateBraces(w: string)
    ensures Translate(['{'] + w + ['}']) == Translate(w)
  {
    TranslateAppend(['{'] + w, ['}']);
    TranslateAppend(['{'], w);
    assert Translate(['{']) == [] && Translate(['}']) == [];
  }

  /** Features whose methods agree up to case, and whose stripped endpoints
      differ only in letter case, in dashes written as slashes, or in a
      brace, share a constant name. */
  lemma ConstantNameCollisions(f: Feature, g: Feature)
    requires Upper(f.httpMethod) == Upper(g.httpMethod)
    requires || StrippedEndpoint(g) == Lower(StrippedEndpoint(f))
             || StrippedEndpoint(g) == Upper(StrippedEndpoint(f))
             || StrippedEndpoint(g) == MapChar(StrippedEndpoint(f), '-', '/')
             || StrippedEndpoint(g) == RemoveChar(StrippedEndpoint(f), '{')
             || StrippedEndpoint(g) == RemoveChar(StrippedEndpoint(f), '}')
    ensures ConstantName(f) == ConstantName(g)
  {
    var e := StrippedEndpoint(f);
    TranslateIgnoresCase(e);
    TranslateDashIsSlash(e);
    TranslateDropsBraces(e);
  }

  // ------------------------------------------------------------------ DTOs

  /** The label naming of the generator. */
  function LabelNaming(featureName: string): Naming {
    FeatureLabel(featureName)
  }

  /** Under label naming every feature with the same method, whatever its
      endpoint, names its DTOs alike. */
  lemma LabelDtoNamesIgnoreEndpoint(featureName: string, f: Feature, g: Feature, suffix: string)
    requires Lower(f.httpMethod) == Lower(g.httpMethod)
    ensures DtoName(LabelNaming(featureName), f, suffix) == DtoName(LabelNaming(featureName), g, suffix)
  {
    DtoNameDeterminism(LabelNaming(featureName), f, g, suffix);
  }

  /** The last character of a DTO name is the last of its role suffix. */
  lemma DtoNameEnds(naming: Naming, f: Feature, suffix: string)
    requires Nameable(naming, f) && |suffix| > 0
    ensures var n := DtoName(naming, f, suffix); n[|n| - 1] == suffix[|suffix| - 1]
  {
  }

  /** True iff `name` ends like a role suffix: `Response`, `Item`, a
      numbered item or `Request`. */
  predicate EndsAsRole(name: string) {
    |name| > 0 &&
    var c := name[|name| - 1];
    c == 'e' || c == 'm' || c == 't' || IsDigit(c)
  }

  lemma ItemSuffixEnds(i: nat)
    ensures IsDigit(ItemSuffix(i)[|ItemSuffix(i)| - 1])
  {
    var d := DecimalString(i + 1);
    assert ItemSuffix(i)[|ItemSuffix(i)| - 1] == d[|d| - 1];
  }

  /** Every name of a feature's DTOs ends as a role suffix does. */
  lemma FeatureDtoNamesEnd(naming: Naming, f: Feature)
    requires Nameable(naming, f) && ObjectsHaveProperties(f)
    ensures forall k :: 0 <= k < |FeatureDtos(naming, f)| ==> EndsAsRole(FeatureDtos(naming, f)[k].name)
  {
    var rs := ResponseDtos(naming, f);
    var qs := RequestDtos(naming, f);
    assert FeatureDtos(naming, f) == rs + qs;
    DtoNameEnds(naming, f, "Request");
    forall k | 0 <= k < |rs| ensures EndsAsRole(rs[k].name) {
      ResponseDtoNameEnds(naming, f, k);
    }
  }

  lemma ItemDtoNameEnds(naming: Naming, f: Feature, es: seq<Schema>, k: nat)
    requires Nameable(naming, f) && forall i :: 0 <= i < |es| ==> HasProperties(es[i])
    requires k < |ItemListDtos(naming, f, es)|
    ensures EndsAsRole(ItemListDtos(naming, f, es)[k].name)
  {
    ItemListDtosOrder(naming, f, es);
    var p := ObjectPositions(es)[k];
    ItemSuffixEnds(p);
    DtoNameEnds(naming, f, ItemSuffix(p));
  }

  lemma ResponseDtoNameEnds(naming: Naming, f: Feature, k: nat)
    requires Nameable(naming, f) && ObjectsHaveProperties(f) && k < |ResponseDtos(naming, f)|
    ensures EndsAsRole(ResponseDtos(naming, f)[k].name)
  {
    var resp := f.response.value;
    if resp.typeTag == "object" {
      DtoNameEnds(naming, f, "Response");
    } else if resp.items.value.ItemList? {
      var es := resp.items.value.entries;
      assert ResponseDtos(naming, f) == ItemListDtos(naming, f, es);
      ItemDtoNameEnds(naming, f, es, k);
    } else {
      DtoNameEnds(naming, f, "Item");
    }
  }

  /** Every collected DTO name ends as a role suffix does. */
  lemma {:induction false} AllDtoNamesEnd(naming: Naming, spec: Specification)
    requires Collectable(naming, spec)
    ensures forall k :: 0 <= k < |AllDtos(naming, spec)| ==> EndsAsRole(AllDtos(naming, spec)[k].name)
  {
    if spec != [] {
      var init := spec[..|spec| - 1];
      assert Collectable(naming, init);
      AllDtoNamesEnd(naming, init);
      FeatureDtoNamesEnd(naming, spec[|spec| - 1]);
    }
  }

  /** The data-source methods return `<featureName>Dto`, a class the generator
      never produces: no DTO name ends in `o`. */
  lemma DataSourceReturnTypeNotGenerated(featureName: string, spec: Specification)
    requires Collectable(LabelNaming(featureName), spec)
    ensures featureName + "Dto" !in DtoNames(AllDtos(LabelNaming(featureName), spec))
  {
    AllDtoNamesEnd(LabelNaming(featureName), spec);
    var n := featureName + "Dto";
    assert n[|n| - 1] == 'o';
  }

  // --------------------------------------------------------------- mappers

  /** The mapped DTO names of one feature: `…Response` for an object
      response; for an array with items, `…Item1` … `…Item<n>` for every
      entry of a list whatever its type, and `…Item` for anything else. */
  function FeatureMapperDtos(featureName: string, f: Feature): (r: set<string>)
    ensures forall d :: d in r ==> EndsAsRole(d) && d[|d| - 1] != 't'
    ensures f.response.None? ==> r == {}
    ensures f.response.Some? ==>
              var resp := f.response.value;
              && (resp.typeTag == "object" ==> r == {DtoName(LabelNaming(featureName), f, "Response")})
              && (resp.typeTag != "object" && resp.typeTag != "array" ==> r == {})
              && (resp.typeTag == "array" && resp.items.None? ==> r == {})
              && (resp.typeTag == "array" && resp.items.Some? && resp.items.value.ItemList? ==>
                    && (forall i :: 0 <= i < |resp.items.value.entries| ==>
                          DtoName(LabelNaming(featureName), f, ItemSuffix(i)) in r)
                    && (forall d :: d in r ==>
                          (exists i :: 0 <= i < |resp.items.value.entries| && d == DtoName(LabelNaming(featureName), f, ItemSuffix(i)))))
              && (resp.typeTag == "array" && resp.items.Some? && resp.items.value.SingleItem? ==>
                    r == {DtoName(LabelNaming(featureName), f, "Item")})
  {
    DtoNameEnds(LabelNaming(featureName), f, "Response");
    DtoNameEnds(LabelNaming(featureName), f, "Item");
    if f.response.None? then {}
    else
      var resp := f.response.value;
      if resp.typeTag == "object" then {DtoName(LabelNaming(featureName), f, "Response")}
      else if resp.typeTag == "array" && resp.items.Some? then
        match resp.items.value
        case ItemList(es) => NumberedMapperDtos(featureName, f, |es|)
        case SingleItem(_) => {DtoName(LabelNaming(featureName), f, "Item")}
      else {}
  }

  /** The mapped names `…Item1` … `…Item<n>`, one per list entry. */
  function NumberedMapperDtos(featureName: string, f: Feature, n: nat): (r: set<string>)
    ensures forall d :: d in r ==> EndsAsRole(d) && d[|d| - 1] != 't'
    ensures forall i :: 0 <= i < n ==> DtoName(LabelNaming(featureName), f, ItemSuffix(i)) in r
    ensures forall d :: d in r ==> exists i :: 0 <= i < n && d == DtoName(LabelNaming(featureName), f, ItemSuffix(i))
  {
    forall i | 0 <= i < n ensures IsDigit(DtoName(LabelNaming(featureName), f, ItemSuffix(i))[|DtoName(LabelNaming(featureName), f, ItemSuffix(i))| - 1]) {
      ItemSuffixEnds(i);
      DtoNameEnds(LabelNaming(featureName), f, ItemSuffix(i));
    }
    set i | 0 <= i < n :: DtoName(LabelNaming(featureName), f, ItemSuffix(i))
  }

  /** `dto_classes` after the loop of `generate_mappers`. */
  function MapperDtos(featureName: string, spec: Specification): (r: set<string>)
    ensures forall d :: d in r ==> EndsAsRole(d) && d[|d| - 1] != 't'
    ensures forall d :: d in r ==> exists i :: 0 <= i < |spec| && d in FeatureMapperDtos(featureName, spec[i])
  {
    if spec == [] then {}
    else
      var n := |spec| - 1;
      assert forall i :: 0 <= i < n ==> spec[..n][i] == spec[i];
      MapperDtos(featureName, spec[..n]) + FeatureMapperDtos(featureName, spec[n])
  }

  /** Each feature's mapped names are among the mapped names. */
  lemma {:induction false} FeatureMappersIncluded(featureName: string, spec: Specification, i: nat)
    requires i < |spec|
    ensures FeatureMapperDtos(featureName, spec[i]) <= MapperDtos(featureName, spec)
  {
    var init := spec[..|spec| - 1];
    if i < |spec| - 1 {
      assert init[i] == spec[i];
      FeatureMappersIncluded(featureName, init, i);
    }
  }

  /** Every response DTO the generator produces has a mapper. */
  lemma ResponseDtosHaveMappers(featureName: string, spec: Specification, i: nat)
    requires i < |spec| && Collectable(LabelNaming(featureName), spec)
    ensures forall k :: 0 <= k < |ResponseDtos(LabelNaming(featureName), spec[i])| ==>
              ResponseDtos(LabelNaming(featureName), spec[i])[k].name in MapperDtos(featureName, spec)
  {
    var f := spec[i];
    var rs := ResponseDtos(LabelNaming(featureName), f);
    FeatureMappersIncluded(featureName, spec, i);
    forall k | 0 <= k < |rs| ensures rs[k].name in FeatureMapperDtos(featureName, f) {
      ResponseDtoHasMapper(featureName, f, k);
    }
  }

  lemma ResponseDtoHasMapper(featureName: string, f: Feature, k: nat)
    requires ObjectsHaveProperties(f) && k < |ResponseDtos(LabelNaming(featureName), f)|
    ensures ResponseDtos(LabelNaming(featureName), f)[k].name in FeatureMapperDtos(featureName, f)
  {
    var resp := f.response.value;
    if resp.typeTag != "object" && resp.items.value.ItemList? {
      ItemListDtosOrder(LabelNaming(featureName), f, resp.items.value.entries);
      var p := ObjectPositions(resp.items.value.entries)[k];
      assert ResponseDtos(LabelNaming(featureName), f)[k].name == DtoName(LabelNaming(featureName), f, ItemSuffix(p));
    }
  }

  /** As the generator stands, a list entry that is not an object gets a
      mapper for `…Item<i+1>`, a DTO its feature never generates. */
  lemma MapperWithoutDtoListEntry(featureName: string, spec: Specification, j: nat, i: nat)
    requires j < |spec| && Collectable(LabelNaming(featureName), spec)
    requires spec[j].response.Some? && spec[j].response.value.typeTag == "array"
    requires spec[j].response.value.items.Some? && spec[j].response.value.items.value.ItemList?
    requires i < |spec[j].response.value.items.value.entries|
    requires spec[j].response.value.items.value.entries[i].typeTag != "object"
    ensures DtoName(LabelNaming(featureName), spec[j], ItemSuffix(i)) in MapperDtos(featureName, spec)
    ensures DtoName(LabelNaming(featureName), spec[j], ItemSuffix(i)) !in DtoNames(FeatureDtos(LabelNaming(featureName), spec[j]))
  {
    FeatureMappersIncluded(featureName, spec, j);
    ListEntryNotGenerated(featureName, spec[j], i);
  }

  /** A non-object list entry's `…Item<i+1>` is no DTO of its feature. */
  lemma ListEntryNotGenerated(featureName: string, f: Feature, i: nat)
    requires ObjectsHaveProperties(f)
    requires f.response.Some? && f.response.value.typeTag == "array"
    requires f.response.value.items.Some? && f.response.value.items.value.ItemList?
    requires i < |f.response.value.items.value.entries|
    requires f.response.value.items.value.entries[i].typeTag != "object"
    ensures DtoName(LabelNaming(featureName), f, ItemSuffix(i)) !in DtoNames(FeatureDtos(LabelNaming(featureName), f))
  {
    var L := LabelNaming(featureName);
    var es := f.response.value.items.value.entries;
    var n := DtoName(L, f, ItemSuffix(i));
    var rs := ResponseDtos(L, f);
    var qs := RequestDtos(L, f);
    assert FeatureDtos(L, f) == rs + qs;
    ItemListDtosOrder(L, f, es);
    var ps := ObjectPositions(es);
    forall k | 0 <= k < |rs| ensures rs[k].name != n {
      assert ps[k] != i;
      if ItemSuffix(ps[k]) == ItemSuffix(i) {
        ItemSuffixInjective(ps[k], i);
      }
      DtoNameSuffixDistinct(L, f, ItemSuffix(ps[k]), ItemSuffix(i));
    }
    if qs != [] {
      assert ItemSuffix(i)[0] == 'I';
      DtoNameSuffixDistinct(L, f, ItemSuffix(i), "Request");
    }
    assert forall k :: 0 <= k < |rs + qs| ==> (rs + qs)[k].name != n;
  }

  /** As the generator stands, a single item that is not an object gets a
      mapper for `…Item`, a DTO its feature never generates. */
  lemma MapperWithoutDtoSingleItem(featureName: string, spec: Specification, j: nat)
    requires j < |spec| && Collectable(LabelNaming(featureName), spec)
    requires spec[j].response.Some? && spec[j].response.value.typeTag == "array"
    requires spec[j].response.value.items.Some? && spec[j].response.value.items.value.SingleItem?
    requires spec[j].response.value.items.value.schema.typeTag != "object"
    ensures DtoName(LabelNaming(featureName), spec[j], "Item") in MapperDtos(featureName, spec)
    ensures DtoName(LabelNaming(featureName), spec[j], "Item") !in DtoNames(FeatureDtos(LabelNaming(featureName), spec[j]))
  {
    FeatureMappersIncluded(featureName, spec, j);
    SingleItemNotGenerated(featureName, spec[j]);
  }

  /** A non-object single item's `…Item` is no DTO of its feature. */
  lemma SingleItemNotGenerated(featureName: string, f: Feature)
    requires ObjectsHaveProperties(f)
    requires f.response.Some? && f.response.value.typeTag == "array"
    requires f.response.value.items.Some? && f.response.value.items.value.SingleItem?
    requires f.response.value.items.value.schema.typeTag != "object"
    ensures DtoName(LabelNaming(featureName), f, "Item") !in DtoNames(FeatureDtos(LabelNaming(featureName), f))
  {
    var L := LabelNaming(featureName);
    var qs := RequestDtos(L, f);
    assert FeatureDtos(L, f) == qs;
    if qs != [] {
      DtoNameSuffixDistinct(L, f, "Item", "Request");
    }
  }

  /** No request DTO gets a mapper. */
  lemma NoRequestMappers(featureName: string, spec: Specification, f: Feature)
    ensures DtoName(LabelNaming(featureName), f, "Request") !in MapperDtos(featureName, spec)
  {
    DtoNameEnds(LabelNaming(featureName), f, "Request");
  }

  /** `<dto>Mapper`. */
  function MapperName(dto: string): (r: string)
    ensures |r| == |dto| + 6 && r[..|dto|] == dto
    ensures r[|dto|..] == "Mapper"
  {
    dto + "Mapper"
  }

  /** A mapper class never takes the name of a mapped or generated DTO:
      mapper names end in `r`, DTO names as a role suffix does. */
  lemma MapperNamesFresh(featureName: string, spec: Specification, d: string)
    requires Collectable(LabelNaming(featureName), spec)
    ensures MapperName(d) !in MapperDtos(featureName, spec)
    ensures MapperName(d) !in DtoNames(AllDtos(LabelNaming(featureName), spec))
  {
    var m := MapperName(d);
    assert m[|m| - 1] == 'r';
    AllDtoNamesEnd(LabelNaming(featureName), spec);
  }

  /** `dto.lower()[0] + dto[1:]`: the receiver of `toDomain`. */
  function Receiver(dto: string): (r: string)
    requires |dto| > 0
    ensures r == LowerFirst(dto)
  {
    [Lower(dto)[0]] + dto[1..]
  }

  // --------------------------------------------------- parameters, calls

  /** A call argument: positional (no label) or `label = value`. */
  datatype Arg = Arg(named: Option<string>, value: string)

  /** True iff the request is an object, the only case that yields a
      request parameter in this generator. */
  predicate ObjectRequest(f: Feature) {
    f.request.Some? && f.request.value.typeTag == "object"
  }

  /** The parameters of a data-source or repository method: the path
      parameters of the stripped endpoint as `String`, the query parameters
      as nullable, then `request` for an object request. */
  function LabelParams(featureName: string, f: Feature): (ps: seq<Param>)
    ensures |ps| == |PathParams(StrippedEndpoint(f))| + |QueryParamDecls(f)| + (if ObjectRequest(f) then 1 else 0)
    ensures forall i :: 0 <= i < |PathParams(StrippedEndpoint(f))| ==>
              ps[i] == Param(PathParams(StrippedEndpoint(f))[i], "String", false)
    ensures ps[|PathParams(StrippedEndpoint(f))|..|PathParams(StrippedEndpoint(f))| + |QueryParamDecls(f)|] == QueryParamDecls(f)
    ensures ObjectRequest(f) ==> ps[|ps| - 1] == Param("request", DtoName(LabelNaming(featureName), f, "Request"), false)
  {
    var pp := PathParamDecls(StrippedEndpoint(f));
    var qp := QueryParamDecls(f);
    var rp := if ObjectRequest(f) then [Param("request", DtoName(LabelNaming(featureName), f, "Request"), false)] else [];
    ParamLayout(pp, qp, rp, PathParams(StrippedEndpoint(f)));
    pp + qp + rp
  }

  /** Only a path parameter or an object request adds a parameter without
      default; the request parameter names a DTO the feature generates. */
  lemma RequestParamResolves(featureName: string, f: Feature)
    requires ObjectsHaveProperties(f) && ObjectRequest(f)
    ensures LabelParams(featureName, f)[|LabelParams(featureName, f)| - 1].kotlinType
            in DtoNames(FeatureDtos(LabelNaming(featureName), f))
  {
    RequestDtoIffObject(LabelNaming(featureName), f);
  }

  /** The path parameters are the same whether or not the endpoint's outer
      slashes are stripped first. */
  lemma LabelPathParams(f: Feature)
    ensures PathParams(StrippedEndpoint(f)) == PathParams(f.endpoint)
  {
    PathParamsIgnoreOuterSlashes(f.endpoint);
  }

  function Positional(names: seq<string>): (r: seq<Arg>)
    ensures |r| == |names| && forall i :: 0 <= i < |names| ==> r[i] == Arg(None, names[i])
  {
    seq(|names|, i requires 0 <= i < |names| => Arg(None, names[i]))
  }

  function ArgValues(args: seq<Arg>): (vs: seq<string>)
    ensures |vs| == |args| && forall i :: 0 <= i < |args| ==> vs[i] == args[i].value
  {
    seq(|args|, i requires 0 <= i < |args| => args[i].value)
  }

  /** The arguments of the HTTP call: the path parameters positionally and
      `body = request` for an object request; the query parameters are not
      among them. */
  function DataSourceArgs(f: Feature): (r: seq<Arg>)
    ensures ArgValues(r) == PathParams(StrippedEndpoint(f)) + (if ObjectRequest(f) then ["request"] else [])
    ensures forall i :: 0 <= i < |r| ==> (r[i].named.None? <==> i < |PathParams(StrippedEndpoint(f))|)
    ensures ObjectRequest(f) ==> r[|r| - 1].named == Some("body")
  {
    var ps := Positional(PathParams(StrippedEndpoint(f)));
    var rs := if ObjectRequest(f) then [Arg(Some("body"), "request")] else [];
    ArgValuesAppend(ps, rs);
    assert ArgValues(ps) == PathParams(StrippedEndpoint(f));
    assert ArgValues(rs) == if ObjectRequest(f) then ["request"] else [];
    ps + rs
  }

  /** `queryParams = mapOf(…)`, as written: emitted only when the method is
      exactly `get`, so `GET` drops the query parameters. */
  function QueryMapAsWritten(f: Feature): (r: Option<seq<string>>)
    ensures r.Some? ==> r == QueryMap(f)
    ensures r.None? && QueryMap(f).Some? <==> f.queryParams.Some? && f.httpMethod != "get" && Lower(f.httpMethod) == "get"
  {
    LowerOfGet();
    if f.queryParams.Some? && f.httpMethod == "get" then Some(QueryParamNames(f)) else None
  }

  lemma LowerOfGet()
    ensures Lower("get") == "get"
  {
  }

  /** `queryParams = mapOf(…)` for a GET in any letter case, as the lowered
      verb of the same method is used for the HTTP call. */
  function QueryMap(f: Feature): (r: Option<seq<string>>)
    ensures r.Some? <==> f.queryParams.Some? && HttpVerb(f) == "get"
    ensures r.Some? ==> r.value == ParamNames(QueryParamDecls(f))
  {
    if f.queryParams.Some? && Lower(f.httpMethod) == "get" then Some(QueryParamNames(f)) else None
  }

  /** The HTTP verb called: `"get"` if the lowered method is `get`, the
      lowered method otherwise, which is the lowered method either way. */
  function HttpVerb(f: Feature): (r: string)
    ensures r == Lower(f.httpMethod)
  {
    var m := Lower(f.httpMethod);
    if m == "get" then "get" else m
  }

  /** With the query map emitted for any GET, every parameter of a GET
      data-source method reaches the HTTP call: path parameters by position,
      query parameters in the map, the request as the body. */
  lemma DataSourcePassesEveryParam(featureName: string, f: Feature)
    requires Lower(f.httpMethod) == "get"
    ensures forall p :: p in ParamNames(LabelParams(featureName, f)) ==>
              p in ArgValues(DataSourceArgs(f)) || (QueryMap(f).Some? && p in QueryMap(f).value)
  {
    var pp := PathParams(StrippedEndpoint(f));
    var rq: seq<string> := if ObjectRequest(f) then ["request"] else [];
    LabelParamNames(featureName, f);
    assert QueryParamNames(f) != [] ==> QueryMap(f) == Some(QueryParamNames(f));
    forall p | p in pp + QueryParamNames(f) + rq
      ensures p in pp + rq || p in QueryParamNames(f)
    {
    }
  }

  lemma PositionalValues(names: seq<string>)
    ensures ArgValues(Positional(names)) == names
  {
  }

  lemma LowerGet()
    ensures Lower("GET") == "get"
  {
  }

  /** A `GET` feature with one query parameter `limit`. */
  const GetUsers := Feature("/users", "GET", Some("getUsers"), Some([Field("limit", "integer")]), None, None)

  lemma GetUsersNoPathParams()
    ensures PathParams(StrippedEndpoint(GetUsers)) == []
  {
    assert '{' !in GetUsers.endpoint;
    LabelPathParams(GetUsers);
  }

  lemma GetUsersParams()
    ensures ParamNames(LabelParams("User", GetUsers)) == ["limit"]
  {
    GetUsersNoPathParams();
    LabelParamNames("User", GetUsers);
    assert QueryParamNames(GetUsers) == ["limit"];
  }

  /** As written, a `GET` feature with a query parameter `limit` declares
      `limit` on its data-source method but passes it nowhere; with the
      method lowered first it goes into the query map. */
  lemma QueryMapAsWrittenDropsGet()
    ensures "limit" in ParamNames(LabelParams("User", GetUsers))
    ensures "limit" !in ArgValues(DataSourceArgs(GetUsers))
    ensures QueryMapAsWritten(GetUsers).None?
    ensures QueryMap(GetUsers) == Some(["limit"])
  {
    GetUsersParams();
    GetUsersArgs();
    GetUsersQueryMap();
  }

  lemma GetUsersArgs()
    ensures DataSourceArgs(GetUsers) == []
  {
    GetUsersNoPathParams();
  }

  lemma GetUsersQueryMap()
    ensures QueryMap(GetUsers) == Some(["limit"])
  {
    LowerGet();
    assert QueryParamNames(GetUsers) == ["limit"];
  }

  /** `name = name` for every name. */
  function NamedArgs(names: seq<string>): (r: seq<Arg>)
    ensures |r| == |names| && forall i :: 0 <= i < |names| ==> r[i] == Arg(Some(names[i]), names[i])
  {
    seq(|names|, i requires 0 <= i < |names| => Arg(Some(names[i]), names[i]))
  }

  /** The arguments the repository passes to the data source: the path
      parameters positionally, `name = name` for each query parameter, then
      `request = request` for an object request. */
  function RepositoryArgs(f: Feature): (r: seq<Arg>)
    ensures ArgValues(r) == PathParams(StrippedEndpoint(f)) + QueryParamNames(f) + (if ObjectRequest(f) then ["request"] else [])
    ensures forall i :: 0 <= i < |r| ==> (r[i].named.None? <==> i < |PathParams(StrippedEndpoint(f))|)
    ensures forall i :: 0 <= i < |r| ==> SelfNamed(r[i])
  {
    var ra := if ObjectRequest(f) then [Arg(Some("request"), "request")] else [];
    SelfNamedLayout(PathParams(StrippedEndpoint(f)), QueryParamNames(f), ra);
    Positional(PathParams(StrippedEndpoint(f))) + NamedArgs(QueryParamNames(f)) + ra
  }

  /** `ArgsLayout` for arguments that all pass a name as itself. */
  lemma SelfNamedLayout(pp: seq<string>, qs: seq<string>, ra: seq<Arg>)
    requires forall i :: 0 <= i < |ra| ==> ra[i].named.Some? && SelfNamed(ra[i])
    ensures ArgValues(Positional(pp) + NamedArgs(qs) + ra) == pp + qs + ArgValues(ra)
    ensures forall i :: 0 <= i < |Positional(pp) + NamedArgs(qs) + ra| ==>
              ((Positional(pp) + NamedArgs(qs) + ra)[i].named.None? <==> i < |pp|)
    ensures forall i :: 0 <= i < |Positional(pp) + NamedArgs(qs) + ra| ==> SelfNamed((Positional(pp) + NamedArgs(qs) + ra)[i])
  {
    var pa := Positional(pp);
    var na := NamedArgs(qs);
    ArgsLayout(pp, qs, ra);
    assert AllSelfNamed(pa) && AllSelfNamed(na) && AllSelfNamed(ra);
    AllSelfNamedAppend(pa, na);
    AllSelfNamedAppend(pa + na, ra);
  }

  lemma ArgValuesAppend(xs: seq<Arg>, ys: seq<Arg>)
    ensures ArgValues(xs + ys) == ArgValues(xs) + ArgValues(ys)
  {
  }

  /** The parameter names of a data-source or repository method. */
  lemma LabelParamNames(featureName: string, f: Feature)
    ensures ParamNames(LabelParams(featureName, f))
            == PathParams(StrippedEndpoint(f)) + QueryParamNames(f) + (if ObjectRequest(f) then ["request"] else [])
  {
    var pd := PathParamDecls(StrippedEndpoint(f));
    var qd := QueryParamDecls(f);
    var rd := if ObjectRequest(f) then [Param("request", DtoName(LabelNaming(featureName), f, "Request"), false)] else [];
    assert LabelParams(featureName, f) == (pd + qd) + rd;
    ParamNamesAppend(pd + qd, rd);
    ParamNamesAppend(pd, qd);
  }

  /** Positional arguments, then `name = name` arguments, then arguments
      that are all named: the values in order, and the positional ones
      exactly the first. */
  lemma ArgsLayout(pp: seq<string>, qs: seq<string>, ra: seq<Arg>)
    requires forall i :: 0 <= i < |ra| ==> ra[i].named.Some?
    ensures ArgValues(Positional(pp) + NamedArgs(qs) + ra) == pp + qs + ArgValues(ra)
    ensures forall i :: 0 <= i < |Positional(pp) + NamedArgs(qs) + ra| ==>
              ((Positional(pp) + NamedArgs(qs) + ra)[i].named.None? <==> i < |pp|)
  {
    var pa := Positional(pp);
    var na := NamedArgs(qs);
    ArgValuesAppend(pa + na, ra);
    ArgValuesAppend(pa, na);
    assert ArgValues(pa) == pp;
    assert ArgValues(na) == qs;
    ConcatIndex(pa, na, ra);
  }

  /** The repository passes every data-source parameter, in order, the
      repository's parameter of the same name. */
  lemma RepositoryArgsBind(featureName: string, f: Feature)
    ensures ArgValues(RepositoryArgs(f)) == ParamNames(LabelParams(featureName, f))
  {
    LabelParamNames(featureName, f);
  }

  /** A named argument passes the value its label names. */
  predicate SelfNamed(a: Arg) {
    a.named.Some? ==> a.named.value == a.value
  }

  predicate AllSelfNamed(args: seq<Arg>) {
    forall i :: 0 <= i < |args| ==> SelfNamed(args[i])
  }

  lemma AllSelfNamedAppend(xs: seq<Arg>, ys: seq<Arg>)
    requires AllSelfNamed(xs) && AllSelfNamed(ys)
    ensures AllSelfNamed(xs + ys)
  {
    forall i | 0 <= i < |xs + ys| ensures SelfNamed((xs + ys)[i]) {
      if i >= |xs| {
        assert (xs + ys)[i] == ys[i - |xs|];
      }
    }
  }

  // --------------------------------------------------------------- methods

  /** A generated method: its name and its parameters. */
  datatype Method = Method(name: string, params: seq<Param>)

  /** A call from a repository method into the data source. */
  datatype Call = Call(target: string, args: seq<Arg>)

  /** Every feature of the specification has an `action`. */
  predicate Actionable(spec: Specification) {
    forall i :: 0 <= i < |spec| ==> spec[i].action.Some?
  }

  /** The method of a feature, the same in the data-source and repository
      interfaces and in their implementations: named by `action` verbatim. */
  function MethodOf(featureName: string, f: Feature): (r: Method)
    requires f.action.Some?
    ensures r.name == f.action.value
    ensures ParamNames(r.params)
            == PathParams(StrippedEndpoint(f)) + QueryParamNames(f) + (if ObjectRequest(f) then ["request"] else [])
  {
    LabelParamNames(featureName, f);
    Method(f.action.value, LabelParams(featureName, f))
  }

  function Methods(featureName: string, spec: Specification): (r: seq<Method>)
    requires Actionable(spec)
    ensures |r| == |spec| && forall i :: 0 <= i < |spec| ==> r[i] == MethodOf(featureName, spec[i])
  {
    seq(|spec|, i requires 0 <= i < |spec| && Actionable(spec) => MethodOf(featureName, spec[i]))
  }

  /** The calls of the repository implementation, one per feature. */
  function RepositoryCalls(spec: Specification): (r: seq<Call>)
    requires Actionable(spec)
    ensures |r| == |spec| && forall i :: 0 <= i < |spec| ==> r[i] == Call(spec[i].action.value, RepositoryArgs(spec[i]))
  {
    seq(|spec|, i requires 0 <= i < |spec| && Actionable(spec) => Call(spec[i].action.value, RepositoryArgs(spec[i])))
  }

  /** Each repository call targets the data-source method of its feature:
      same name, and its arguments bind that method's parameters by name. */
  lemma RepositoryCallsResolve(featureName: string, spec: Specification, i: nat)
    requires Actionable(spec) && i < |spec|
    ensures RepositoryCalls(spec)[i].target == Methods(featureName, spec)[i].name
    ensures ArgValues(RepositoryCalls(spec)[i].args) == ParamNames(Methods(featureName, spec)[i].params)
  {
    RepositoryArgsBind(featureName, spec[i]);
  }
}

=== FILE: ascii.dfy ===
/** ASCII case mapping with the meaning of Python's `str.upper`, `str.lower`
    and `str.capitalize`, restricted to the ASCII letters: every other
    character is left as it is. */
module Ascii {

  predicate IsUpper(c: char) { 'A' <= c <= 'Z' }

  predicate IsLower(c: char) { 'a' <= c <= 'z' }

  function UpperChar(c: char): (r: char)
    ensures !IsLower(r)
    ensures IsLower(c) <==> IsUpper(r) && r != c
  {
    if IsLower(c) then (c as int - 32) as char else c
  }

  function LowerChar(c: char): (r: char)
    ensures !IsUpper(r)
    ensures IsUpper(c) <==> IsLower(r) && r != c
  {
    if IsUpper(c) then (c as int + 32) as char else c
  }

  /** Python `s.upper()`. */
  function Upper(s: string): (r: string)
    ensures |r| == |s|
    ensures forall i :: 0 <= i < |s| ==> r[i] == UpperChar(s[i])
  {
    seq(|s|, i requires 0 <= i < |s| => UpperChar(s[i]))
  }

  lemma UpperAppend(a: string, b: string)
    ensures Upper(a + b) == Upper(a) + Upper(b)
  {
  }

  /** Python `s.lower()`. */
  function Lower(s: string): (r: string)
    ensures |r| == |s|
    ensures forall i :: 0 <= i < |s| ==> r[i] == LowerChar(s[i])
  {
    seq(|s|, i requires 0 <= i < |s| => LowerChar(s[i]))
  }

  /** Python `s.capitalize()`: the first character upper-cased, all the
      others lower-cased. */
  function Capitalize(s: string): (r: string)
    ensures |r| == |s|
    ensures |s| > 0 ==> r[0] == UpperChar(s[0])
    ensures forall i :: 1 <= i < |s| ==> r[i] == LowerChar(s[i])
  {
    if s == [] then [] else [UpperChar(s[0])] + Lower(s[1..])
  }

  /** The shape of a capitalized string: no lower-case first letter and no
      upper-case letter after it. */
  lemma CapitalizeShape(s: string)
    ensures |s| > 0 ==> Capitalize(s)[0] == UpperChar(s[0])
    ensures forall i :: 1 <= i < |s| ==> Capitalize(s)[i] == LowerChar(s[i])
    ensures forall i :: 1 <= i < |s| ==> !IsUpper(Capitalize(s)[i])
  {
  }

  lemma UpperOfLowerChar(c: char)
    ensures UpperChar(LowerChar(c)) == UpperChar(c)
    ensures LowerChar(UpperChar(c)) == LowerChar(c)
    ensures LowerChar(LowerChar(c)) == LowerChar(c)
    ensures UpperChar(UpperChar(c)) == UpperChar(c)
  {
  }

  /** Case folding forgets the case it started from. */
  lemma CaseFoldAbsorbs(s: string)
    ensures Upper(Lower(s)) == Upper(s)
    ensures Lower(Upper(s)) == Lower(s)
    ensures Lower(Lower(s)) == Lower(s)
    ensures Upper(Upper(s)) == Upper(s)
  {
    forall i | 0 <= i < |s| ensures Upper(Lower(s))[i] == Upper(s)[i] && Lower(Upper(s))[i] == Lower(s)[i]
                                   && Lower(Lower(s))[i] == Lower(s)[i] && Upper(Upper(s))[i] == Upper(s)[i] {
      UpperOfLowerChar(s[i]);
    }
  }

  /** `capitalize` ignores the case of its input, is idempotent, and changes
      nothing but case. */
  lemma CapitalizeIgnoresCase(s: string)
    ensures Capitalize(Lower(s)) == Capitalize(s)
    ensures Capitalize(Upper(s)) == Capitalize(s)
    ensures Capitalize(Capitalize(s)) == Capitalize(s)
    ensures Lower(Capitalize(s)) == Lower(s)
  {
    if s != [] {
      CaseFoldAbsorbs(s[1..]);
      UpperOfLowerChar(s[0]);
      assert Lower(s)[1..] == Lower(s[1..]);
      assert Upper(s)[1..] == Upper(s[1..]);
      assert Capitalize(s)[1..] == Lower(s[1..]);
      assert Lower(Capitalize(s)) == [LowerChar(UpperChar(s[0]))] + Lower(Lower(s[1..]));
      assert Lower(s) == [LowerChar(s[0])] + Lower(s[1..]);
    }
  }

  /** Lower-casing a string that has no upper-case letter changes nothing. */
  lemma LowerOfLowerCase(s: string)
    requires forall i :: 0 <= i < |s| ==> !IsUpper(s[i])
    ensures Lower(s) == s
  {
  }

  /** Capitalizing a word with no capital after its first letter only
      upper-cases that letter. */
  lemma CapitalizeLowerTail(s: string)
    requires |s| > 0 && forall i :: 1 <= i < |s| ==> !IsUpper(s[i])
    ensures Capitalize(s) == [UpperChar(s[0])] + s[1..]
  {
    LowerOfLowerCase(s[1..]);
  }

  /** Lower-cases the first character only, as the mapper generator does for
      an extension receiver. */
  function LowerFirst(s: string): (r: string)
    requires |s| > 0
    ensures |r| == |s| && r[1..] == s[1..]
    ensures !IsUpper(r[0])
    ensures IsUpper(s[0]) ==> [UpperChar(r[0])] + r[1..] == s
    ensures !IsUpper(s[0]) ==> r == s
  {
    [LowerChar(s[0])] + s[1..]
  }
}

=== FILE: data_layer.dfy ===
/** The endpoint-segment generator: per resource group, a Retrofit interface
    (`…Endpoints`), a remote data source forwarding to it
    (`…RemoteDataSource`) and a repository forwarding to the data source
    (`…Repository`). The model derives the names, return types, parameter
    lists and call arguments of their methods, and the names by which each
    class refers to the one below it. */
module DataLayer {
  import opened Seqs
  import opened Ascii
  import opened Strings
  import opened Features
  import opened Derive
  import opened Grouping

  // --------------------------------------------------------- method names

  /** The pieces of the endpoint once its outer slashes are stripped. */
  function StrippedParts(endpoint: string): seq<string> {
    Split(Strip(endpoint, '/'), '/')
  }

  /** The resource of a method name: the first stripped piece, capitalized. */
  function MethodResource(endpoint: string): string {
    Capitalize(StrippedParts(endpoint)[0])
  }

  /** True iff the second stripped piece holds a `{`. */
  predicate ById(endpoint: string) {
    |StrippedParts(endpoint)| > 1 && '{' in StrippedParts(endpoint)[1]
  }

  /** The method name for a lower-cased verb `v` and a resource. */
  function NameFor(v: string, res: string, byId: bool): string {
    if v == "get" then
      if byId then "get" + res + "ById" else "get" + res + "s"
    else if v == "post" then "create" + res
    else if v == "put" then "update" + res
    else if v == "delete" then "delete" + res
    else v + res
  }

  /** `_get_endpoint_method_name`: `get…ById` for a GET whose second piece
      holds a `{`, `get…s` for any other GET, `create…`, `update…` and
      `delete…` for POST, PUT and DELETE, and the lower-cased verb itself
      for any other verb. */
  function MethodName(endpoint: string, verb: string): (r: string)
    ensures Lower(verb) == "get" ==> r == "get" + MethodResource(endpoint) + (if ById(endpoint) then "ById" else "s")
    ensures Lower(verb) == "post" ==> r == "create" + MethodResource(endpoint)
    ensures Lower(verb) == "put" ==> r == "update" + MethodResource(endpoint)
    ensures Lower(verb) == "delete" ==> r == "delete" + MethodResource(endpoint)
    ensures Lower(verb) !in {"get", "post", "put", "delete"} ==> r == Lower(verb) + MethodResource(endpoint)
  {
    NameFor(Lower(verb), MethodResource(endpoint), ById(endpoint))
  }

  /** On one endpoint, GET, POST, PUT and DELETE give four different method
      names, so one group never declares a method twice for them. */
  lemma MethodNamesDistinct(endpoint: string)
    ensures |{MethodName(endpoint, "get"), MethodName(endpoint, "post"),
              MethodName(endpoint, "put"), MethodName(endpoint, "delete")}| == 4
  {
    LowerVerbs();
    var g := MethodName(endpoint, "get");
    var p := MethodName(endpoint, "post");
    var u := MethodName(endpoint, "put");
    var d := MethodName(endpoint, "delete");
    assert g[0] == 'g' && p[0] == 'c' && u[0] == 'u' && d[0] == 'd';
  }

  lemma LowerVerbs()
    ensures Lower("get") == "get" && Lower("post") == "post"
    ensures Lower("put") == "put" && Lower("delete") == "delete"
  {
  }

  /** The method name is the same whatever the case of the verb, so the
      lower-casing the callers do first changes nothing. */
  lemma MethodNameIgnoresCase(endpoint: string, verb: string)
    ensures MethodName(endpoint, Lower(verb)) == MethodName(endpoint, verb)
    ensures MethodName(endpoint, Upper(verb)) == MethodName(endpoint, verb)
  {
    CaseFoldAbsorbs(verb);
  }

  /** The method name depends only on the verb up to case, the first
      stripped piece up to case, and whether the second stripped piece holds
      a `{`: `/users/{id}` and `/users/{id}/posts` share `getUsersById`. */
  lemma MethodNameDeterminism(e1: string, e2: string, v1: string, v2: string)
    requires Lower(v1) == Lower(v2)
    requires Lower(StrippedParts(e1)[0]) == Lower(StrippedParts(e2)[0])
    requires ById(e1) <==> ById(e2)
    ensures MethodName(e1, v1) == MethodName(e2, v2)
  {
    CapitalizeIgnoresCase(StrippedParts(e1)[0]);
    CapitalizeIgnoresCase(StrippedParts(e2)[0]);
    assert MethodResource(e1) == MethodResource(e2);
  }

  /** Outer slashes do not change a method name. */
  lemma MethodNameIgnoresOuterSlashes(endpoint: string, verb: string)
    ensures MethodName(Strip(endpoint, '/'), verb) == MethodName(endpoint, verb)
  {
    var e := Strip(endpoint, '/');
    StripIdempotent(endpoint, '/');
    assert StrippedParts(e) == StrippedParts(endpoint);
    assert MethodResource(e) == MethodResource(endpoint) && ById(e) == ById(endpoint);
    assert MethodName(e, verb) == NameFor(Lower(verb), MethodResource(endpoint), ById(endpoint));
  }

  /** For an endpoint written `/resource…`, the resource of the method name
      is the resource its group and its DTOs are named after. */
  lemma MethodResourceIsSegmentResource(endpoint: string)
    requires |endpoint| >= 2 && endpoint[0] == '/' && endpoint[1] != '/'
    ensures HasResourceSegment(endpoint)
    ensures MethodResource(endpoint) == SegmentResource(endpoint)
  {
    var s := endpoint[1..];
    assert endpoint == ['/'] + s;
    SplitPrependSep(s, '/');
    assert StripLeft(endpoint, '/') == s;
    var t := StripRight(s, '/');
    assert Strip(endpoint, '/') == t;
    SplitHeadOfPrefix(t, s, '/');
  }

  // ---------------------------------------------------------- return type

  /** The declared return type of an endpoint method: `Unit` without a
      response (or with one of another type), the `…Response` DTO for an
      object, and a list of the plain `…Item` DTO for any array. */
  function ReturnType(f: Feature): (r: string)
    requires HasResourceSegment(f.endpoint)
    ensures f.response.Some? && f.response.value.typeTag == "object" ==> r == DtoName(EndpointSegment, f, "Response")
    ensures f.response.Some? && f.response.value.typeTag == "array" ==> r == "List<" + DtoName(EndpointSegment, f, "Item") + ">"
    ensures r == "Unit" <==> f.response.None? || f.response.value.typeTag !in {"object", "array"}
  {
    if f.response.Some? && f.response.value.typeTag == "object" then
      DtoName(EndpointSegment, f, "Response")
    else if f.response.Some? && f.response.value.typeTag == "array" then
      "List<" + DtoName(EndpointSegment, f, "Item") + ">"
    else "Unit"
  }

  /** An object response is returned as the DTO the collection generates
      for it. */
  lemma ObjectReturnTypeResolves(f: Feature)
    requires HasResourceSegment(f.endpoint) && ObjectsHaveProperties(f)
    requires f.response.Some? && f.response.value.typeTag == "object"
    ensures ReturnType(f) in DtoNames(FeatureDtos(EndpointSegment, f))
  {
    assert DtoNames(FeatureDtos(EndpointSegment, f))[0] == ReturnType(f);
  }

  /** An array response is returned as a list of the plain `…Item` DTO, which
      the feature generates only when its items are one object schema; a
      list of items yields `…Item1`, `…Item2`, … instead. */
  lemma ArrayReturnTypeResolvesIff(f: Feature)
    requires HasResourceSegment(f.endpoint) && ObjectsHaveProperties(f)
    requires f.response.Some? && f.response.value.typeTag == "array"
    ensures ReturnType(f) == "List<" + DtoName(EndpointSegment, f, "Item") + ">"
    ensures DtoName(EndpointSegment, f, "Item") in DtoNames(FeatureDtos(EndpointSegment, f))
            <==> f.response.value.items.Some? && f.response.value.items.value.SingleItem?
                 && f.response.value.items.value.schema.typeTag == "object"
  {
    var n := DtoName(EndpointSegment, f, "Item");
    var ds := FeatureDtos(EndpointSegment, f);
    var rs := ResponseDtos(EndpointSegment, f);
    var qs := RequestDtos(EndpointSegment, f);
    assert ds == rs + qs;
    forall k | 0 <= k < |qs| ensures qs[k].name != n {
      DtoNameSuffixDistinct(EndpointSegment, f, "Request", "Item");
    }
    var items := f.response.value.items;
    if items.Some? && items.value.ItemList? {
      forall k | 0 <= k < |rs| ensures rs[k].name != n {
        ItemNameIsNotPlainItem(f, k);
      }
      assert forall k :: 0 <= k < |ds| ==> ds[k].name != n;
    } else if items.Some? && items.value.schema.typeTag == "object" {
      assert DtoNames(ds)[0] == n;
    } else {
      assert rs == [];
      assert forall k :: 0 <= k < |ds| ==> ds[k].name != n;
    }
  }

  /** A numbered item DTO never takes the plain `…Item` name. */
  lemma ItemNameIsNotPlainItem(f: Feature, k: nat)
    requires HasResourceSegment(f.endpoint) && ObjectsHaveProperties(f)
    requires f.response.Some? && f.response.value.typeTag == "array"
    requires f.response.value.items.Some? && f.response.value.items.value.ItemList?
    requires k < |ResponseDtos(EndpointSegment, f)|
    ensures ResponseDtos(EndpointSegment, f)[k].name != DtoName(EndpointSegment, f, "Item")
  {
    ItemListDtosOrder(EndpointSegment, f, f.response.value.items.value.entries);
    var p := ObjectPositions(f.response.value.items.value.entries)[k];
    assert |ItemSuffix(p)| > 4;
    DtoNameSuffixDistinct(EndpointSegment, f, ItemSuffix(p), "Item");
  }

  // ------------------------------------------------ parameters, arguments

  /** `@Body request: …Request` whenever a request is given, whatever its
      type. */
  function RequestDecls(f: Feature): seq<Param>
    requires HasResourceSegment(f.endpoint)
  {
    if f.request.Some? then [Param("request", DtoName(EndpointSegment, f, "Request"), false)] else []
  }

  /** The parameters of a method in all three layers: the path parameters as
      `String`, the query parameters as nullable, then the request body. */
  function Params(f: Feature): (ps: seq<Param>)
    requires HasResourceSegment(f.endpoint)
    ensures |ps| == |PathParams(f.endpoint)| + |QueryParamDecls(f)| + (if f.request.Some? then 1 else 0)
    ensures forall i :: 0 <= i < |PathParams(f.endpoint)| ==>
              ps[i] == Param(PathParams(f.endpoint)[i], "String", false)
    ensures ps[|PathParams(f.endpoint)|..|PathParams(f.endpoint)| + |QueryParamDecls(f)|] == QueryParamDecls(f)
    ensures f.request.Some? ==> ps[|ps| - 1] == Param("request", DtoName(EndpointSegment, f, "Request"), false)
  {
    var pp := PathParamDecls(f.endpoint);
    var qp := QueryParamDecls(f);
    var rp := RequestDecls(f);
    ParamLayout(pp, qp, rp, PathParams(f.endpoint));
    pp + qp + rp
  }

  /** The arguments a data source or repository passes down: the path
      parameter names, the query parameter names, then `request`. Every
      call passes each of the caller's parameters, by position, in declared
      order, so it matches the callee's parameter list. */
  function CallArgs(f: Feature): (r: seq<string>)
    requires HasResourceSegment(f.endpoint)
    ensures r == ParamNames(Params(f))
  {
    var pp := PathParamDecls(f.endpoint);
    var qp := QueryParamDecls(f);
    var rp := RequestDecls(f);
    assert Params(f) == (pp + qp) + rp;
    ParamNamesAppend(pp + qp, rp);
    ParamNamesAppend(pp, qp);
    assert ParamNames(rp) == (if f.request.Some? then ["request"] else []);
    PathParams(f.endpoint) + QueryParamNames(f) + (if f.request.Some? then ["request"] else [])
  }

  /** The body parameter names a DTO the feature generates exactly when the
      request is an object: any other request type names a class that does
      not exist. */
  lemma RequestParamResolvesIff(f: Feature)
    requires HasResourceSegment(f.endpoint) && ObjectsHaveProperties(f) && f.request.Some?
    ensures Params(f)[|Params(f)| - 1] == Param("request", DtoName(EndpointSegment, f, "Request"), false)
    ensures Params(f)[|Params(f)| - 1].kotlinType in DtoNames(FeatureDtos(EndpointSegment, f))
            <==> f.request.value.typeTag == "object"
  {
    assert Params(f)[|Params(f)| - 1].kotlinType == DtoName(EndpointSegment, f, "Request");
    RequestDtoIffObject(EndpointSegment, f);
  }

  // --------------------------------------------------- generated classes

  /** A Retrofit method: name, parameters and return type. */
  datatype Signature = Signature(name: string, params: seq<Param>, returnType: string)

  /** A forwarding method: `override suspend fun name(params) = dep.name(args)`. */
  datatype Forward = Forward(name: string, params: seq<Param>, args: seq<string>)

  datatype Interface = Interface(name: string, methods: seq<Signature>)

  /** A class whose methods forward to a dependency of the named type. */
  datatype Forwarder = Forwarder(name: string, dependency: string, methods: seq<Forward>)

  /** The name every layer gives the method of `f`: the callers pass the
      verb lower-cased. */
  function LayerMethodName(f: Feature): string {
    MethodName(f.endpoint, Lower(f.httpMethod))
  }

  function SignatureOf(f: Feature): Signature
    requires HasResourceSegment(f.endpoint)
  {
    Signature(LayerMethodName(f), Params(f), ReturnType(f))
  }

  function ForwardOf(f: Feature): Forward
    requires HasResourceSegment(f.endpoint)
  {
    Forward(LayerMethodName(f), Params(f), CallArgs(f))
  }

  function Signatures(fs: seq<Feature>): (r: seq<Signature>)
    requires Groupable(fs)
    ensures |r| == |fs| && forall i :: 0 <= i < |fs| ==> r[i] == SignatureOf(fs[i])
  {
    seq(|fs|, i requires 0 <= i < |fs| && Groupable(fs) => SignatureOf(fs[i]))
  }

  function Forwards(fs: seq<Feature>): (r: seq<Forward>)
    requires Groupable(fs)
    ensures |r| == |fs| && forall i :: 0 <= i < |fs| ==> r[i] == ForwardOf(fs[i])
  {
    seq(|fs|, i requires 0 <= i < |fs| && Groupable(fs) => ForwardOf(fs[i]))
  }

  /** `generate_endpoints`: one interface per `…Endpoints` group. */
  function EndpointInterfaces(spec: Specification): (r: seq<Interface>)
    requires Groupable(spec)
    ensures |r| == |GroupBy(spec, "Endpoints")|
    ensures forall j :: 0 <= j < |r| ==>
              r[j].name == GroupBy(spec, "Endpoints")[j].key
              && r[j].methods == Signatures(GroupBy(spec, "Endpoints")[j].members)
  {
    var gs := GroupBy(spec, "Endpoints");
    seq(|gs|, j requires 0 <= j < |gs| => Interface(gs[j].key, Signatures(gs[j].members)))
  }

  /** `class_name.replace("RemoteDataSource", "Endpoints")`. */
  function EndpointsOf(dataSource: string): string {
    ReplaceAll(dataSource, "RemoteDataSource", "Endpoints")
  }

  /** `generate_remote_datasources`: one class per `…RemoteDataSource` group,
      holding the endpoint interface named by `EndpointsOf`. */
  function DataSources(spec: Specification): (r: seq<Forwarder>)
    requires Groupable(spec)
    ensures |r| == |GroupBy(spec, "RemoteDataSource")|
    ensures forall j :: 0 <= j < |r| ==>
              r[j].name == GroupBy(spec, "RemoteDataSource")[j].key
              && r[j].dependency == EndpointsOf(r[j].name)
              && r[j].methods == Forwards(GroupBy(spec, "RemoteDataSource")[j].members)
  {
    var gs := GroupBy(spec, "RemoteDataSource");
    seq(|gs|, j requires 0 <= j < |gs| => Forwarder(gs[j].key, EndpointsOf(gs[j].key), Forwards(gs[j].members)))
  }

  /** `class_name.replace("Repository", "RemoteDataSource")`, the data-source
      name a repository derives, as written. */
  function DataSourceOfRepositoryAsWritten(repository: string): string {
    ReplaceAll(repository, "Repository", "RemoteDataSource")
  }

  /** A repository class name: one that ends in `Repository`. */
  predicate IsRepositoryName(k: string) {
    |k| >= 10 && k[|k| - 10..] == "Repository"
  }

  /** The data-source name a repository means: its `Repository` suffix
      exchanged for `RemoteDataSource`. */
  function DataSourceOfRepository(repository: string): (r: string)
    requires IsRepositoryName(repository)
    ensures |r| == |repository| + 6
    ensures r[..|repository| - 10] == repository[..|repository| - 10]
    ensures r[|repository| - 10..] == "RemoteDataSource"
  {
    repository[..|repository| - 10] + "RemoteDataSource"
  }

  /** `generate_repositories` with the data-source name derived by
      `DataSourceOfRepository`, the correction of line 312's replace: one
      class per `…Repository` group, holding the data source `I` + its name.
      `RepositoriesAsWritten` keeps line 312 as it stands. */
  function Repositories(spec: Specification): (r: seq<Forwarder>)
    requires Groupable(spec)
    ensures |r| == |GroupBy(spec, "Repository")|
    ensures forall j :: 0 <= j < |r| ==>
              r[j].name == GroupBy(spec, "Repository")[j].key
              && IsRepositoryName(r[j].name)
              && r[j].dependency == "I" + DataSourceOfRepository(r[j].name)
              && r[j].methods == Forwards(GroupBy(spec, "Repository")[j].members)
  {
    var gs := GroupBy(spec, "Repository");
    RepositoryKeys(spec);
    seq(|gs|, j requires 0 <= j < |gs| =>
      Forwarder(gs[j].key, "I" + DataSourceOfRepository(gs[j].key), Forwards(gs[j].members)))
  }

  /** `generate_repositories` as written: the dependency is derived by
      replacing every `Repository` in the class name. */
  function RepositoriesAsWritten(spec: Specification): (r: seq<Forwarder>)
    requires Groupable(spec)
    ensures |r| == |GroupBy(spec, "Repository")|
    ensures forall j :: 0 <= j < |r| ==>
              r[j].name == GroupBy(spec, "Repository")[j].key
              && r[j].dependency == "I" + DataSourceOfRepositoryAsWritten(r[j].name)
              && r[j].methods == Forwards(GroupBy(spec, "Repository")[j].members)
  {
    var gs := GroupBy(spec, "Repository");
    seq(|gs|, j requires 0 <= j < |gs| =>
      Forwarder(gs[j].key, "I" + DataSourceOfRepositoryAsWritten(gs[j].key), Forwards(gs[j].members)))
  }

  /** The repository as written is the corrected one exactly when its
      resource does not begin with `Repository`. */
  lemma RepositoriesAsWrittenAgree(spec: Specification, j: nat)
    requires Groupable(spec) && j < |Repositories(spec)|
    ensures j < |GroupBy(spec, "")|
    ensures RepositoriesAsWritten(spec)[j] == Repositories(spec)[j]
            <==> !(|GroupBy(spec, "")[j].key| >= 10 && GroupBy(spec, "")[j].key[..10] == "Repository")
  {
    GroupBySuffix(spec, "Repository");
    var g := GroupBy(spec, "")[j];
    assert GroupBy(spec, "Repository")[j] == Group(g.key + "Repository", g.members);
    ResourceKeysCapitalized(spec, j);
    DataSourceOfRepositoryAsWrittenIff(g.key);
    var a := DataSourceOfRepositoryAsWritten(g.key + "Repository");
    var b := DataSourceOfRepository(g.key + "Repository");
    assert ("I" + a == "I" + b) <==> a == b by {
      if "I" + a == "I" + b {
        assert a == ("I" + a)[1..] && b == ("I" + b)[1..];
      }
    }
  }

  /** Every repository group key ends in `Repository`. */
  lemma RepositoryKeys(spec: Specification)
    requires Groupable(spec)
    ensures forall j :: 0 <= j < |GroupBy(spec, "Repository")| ==> IsRepositoryName(GroupBy(spec, "Repository")[j].key)
  {
    KeysEndWithSuffix(spec, "Repository");
  }

  // -------------------------------------------------- sibling resolution

  /** A pattern whose first letter is upper-case, and whose upper-case
      letter at `q` is not found before `q`, cannot start inside a
      capitalized word it is appended to. */
  lemma NoEarlyOccurrence(w: string, pat: string, q: nat)
    requires 0 < q < |pat| && IsUpper(pat[0]) && IsUpper(pat[q]) && pat[q] !in pat[..q]
    requires forall i :: 1 <= i < |w| ==> !IsUpper(w[i])
    ensures forall p :: 0 <= p < |w| ==> !OccursAt(w + pat, pat, p)
  {
    var s := w + pat;
    forall p | 0 <= p < |w| ensures !OccursAt(s, pat, p) {
      if p + |pat| <= |s| {
        if p >= 1 {
          assert s[p..p + |pat|][0] == w[p];
        } else if q < |w| {
          assert s[..|pat|][q] == w[q];
        } else {
          assert s[..|pat|][q] == pat[q - |w|];
          assert pat[q - |w|] == pat[..q][q - |w|];
        }
      }
    }
  }

  /** A pattern cannot start inside a word that does not start with the
      pattern's first character, when no other upper-case letter follows. */
  lemma NoEarlyOccurrenceAfterFirst(w: string, pat: string)
    requires |pat| > 0 && IsUpper(pat[0]) && (|w| > 0 ==> w[0] != pat[0])
    requires forall i :: 1 <= i < |w| ==> !IsUpper(w[i])
    ensures forall p :: 0 <= p < |w| ==> !OccursAt(w + pat, pat, p)
  {
    var s := w + pat;
    forall p | 0 <= p < |w| ensures !OccursAt(s, pat, p) {
      if p + |pat| <= |s| {
        assert s[p..p + |pat|][0] == w[p];
      }
    }
  }

  /** Each bare group key, capitalized, has no upper-case letter after its
      first character. */
  lemma BareKeyShape(spec: Specification, j: nat)
    requires Groupable(spec) && j < |GroupBy(spec, "")|
    ensures forall i :: 1 <= i < |GroupBy(spec, "")[j].key| ==> !IsUpper(GroupBy(spec, "")[j].key[i])
  {
    ResourceKeysCapitalized(spec, j);
  }

  /** The endpoint interface a data source names is the one of its own
      resource. */
  lemma EndpointsOfDataSource(w: string)
    requires forall i :: 1 <= i < |w| ==> !IsUpper(w[i])
    ensures EndpointsOf(w + "RemoteDataSource") == w + "Endpoints"
  {
    assert "RemoteDataSource"[6] == 'D';
    NoEarlyOccurrence(w, "RemoteDataSource", 6);
    ReplaceTrailing(w, "RemoteDataSource", "Endpoints");
  }

  /** Forwarding calls pass each caller parameter in order. */
  lemma ForwardsMatch(fs: seq<Feature>)
    requires Groupable(fs)
    ensures forall i :: 0 <= i < |fs| ==>
              && Forwards(fs)[i].name == Signatures(fs)[i].name
              && Forwards(fs)[i].args == ParamNames(Signatures(fs)[i].params)
              && Forwards(fs)[i].args == ParamNames(Forwards(fs)[i].params)
  {
    forall i | 0 <= i < |fs|
      ensures Forwards(fs)[i].args == ParamNames(Signatures(fs)[i].params)
    {
      assert Forwards(fs)[i].args == CallArgs(fs[i]);
    }
  }

  /** Every data source refers to the endpoint interface of its own group,
      and every forwarding call names a method of that interface and passes
      exactly its parameters in order. */
  lemma DataSourcesResolve(spec: Specification, j: nat)
    requires Groupable(spec) && j < |DataSources(spec)|
    ensures j < |EndpointInterfaces(spec)|
    ensures EndpointInterfaces(spec)[j].name == DataSources(spec)[j].dependency
    ensures |EndpointInterfaces(spec)[j].methods| == |DataSources(spec)[j].methods|
    ensures forall i :: 0 <= i < |DataSources(spec)[j].methods| ==>
              && DataSources(spec)[j].methods[i].name == EndpointInterfaces(spec)[j].methods[i].name
              && DataSources(spec)[j].methods[i].args == ParamNames(EndpointInterfaces(spec)[j].methods[i].params)
  {
    GroupBySuffix(spec, "Endpoints");
    GroupBySuffix(spec, "RemoteDataSource");
    var g := GroupBy(spec, "")[j];
    assert GroupBy(spec, "Endpoints")[j] == Group(g.key + "Endpoints", g.members);
    assert GroupBy(spec, "RemoteDataSource")[j] == Group(g.key + "RemoteDataSource", g.members);
    ResourceKeysCapitalized(spec, j);
    EndpointsOfDataSource(g.key);
    ForwardsMatch(g.members);
  }

  /** Every repository refers to the data source of its own group, and every
      forwarding call names a method of that data source and passes exactly
      its parameters in order. */
  lemma RepositoriesResolve(spec: Specification, j: nat)
    requires Groupable(spec) && j < |Repositories(spec)|
    ensures j < |DataSources(spec)|
    ensures Repositories(spec)[j].dependency == "I" + DataSources(spec)[j].name
    ensures |Repositories(spec)[j].methods| == |DataSources(spec)[j].methods|
    ensures forall i :: 0 <= i < |Repositories(spec)[j].methods| ==>
              && Repositories(spec)[j].methods[i].name == DataSources(spec)[j].methods[i].name
              && Repositories(spec)[j].methods[i].args == ParamNames(DataSources(spec)[j].methods[i].params)
  {
    GroupBySuffix(spec, "Repository");
    GroupBySuffix(spec, "RemoteDataSource");
    var g := GroupBy(spec, "")[j];
    assert GroupBy(spec, "Repository")[j] == Group(g.key + "Repository", g.members);
    assert GroupBy(spec, "RemoteDataSource")[j] == Group(g.key + "RemoteDataSource", g.members);
    var k := g.key + "Repository";
    assert k[..|k| - 10] == g.key;
    ForwardsMatch(g.members);
  }

  /** As written, a repository finds its data source exactly when its
      resource does not begin with `Repository`. */
  lemma DataSourceOfRepositoryAsWrittenIff(w: string)
    requires forall i :: 1 <= i < |w| ==> !IsUpper(w[i])
    ensures DataSourceOfRepositoryAsWritten(w + "Repository") == DataSourceOfRepository(w + "Repository")
            <==> !(|w| >= 10 && w[..10] == "Repository")
  {
    if |w| >= 10 && w[..10] == "Repository" {
      LeadingRepositoryReplaced(w);
    } else {
      RepositoryPattern();
      NoEarlyOccurrenceUnlessLeading(w, "Repository");
      ReplaceTrailing(w, "Repository", "RemoteDataSource");
    }
  }

  /** A resource that begins with `Repository` has that prefix replaced as
      well. */
  lemma LeadingRepositoryReplaced(w: string)
    requires |w| >= 10 && w[..10] == "Repository"
    ensures DataSourceOfRepositoryAsWritten(w + "Repository") != DataSourceOfRepository(w + "Repository")
  {
    var pat := "Repository";
    var k := w + pat;
    assert k[..|k| - 10] == w;
    assert k[..10] == pat;
    ReplaceAllLeading(k, pat, "RemoteDataSource");
    var a := DataSourceOfRepositoryAsWritten(k);
    assert a[2] == a[..16][2] == 'm';
    var b := DataSourceOfRepository(k);
    assert b[2] == w[2] == w[..10][2] == 'p';
  }

  /** `Repository` starts with a capital that it does not repeat. */
  lemma RepositoryPattern()
    ensures IsUpper("Repository"[0])
    ensures forall j :: 1 <= j < |"Repository"| ==> "Repository"[j] != "Repository"[0]
  {
  }

  /** A pattern whose capital first letter does not recur cannot occur in
      `w + pat` before the trailing copy, unless `w` itself begins with it,
      when the letters of `w` after the first are not capitals. */
  lemma NoEarlyOccurrenceUnlessLeading(w: string, pat: string)
    requires |pat| > 0 && IsUpper(pat[0])
    requires forall j :: 1 <= j < |pat| ==> pat[j] != pat[0]
    requires forall i :: 1 <= i < |w| ==> !IsUpper(w[i])
    requires !(|w| >= |pat| && w[..|pat|] == pat)
    ensures forall p :: 0 <= p < |w| ==> !OccursAt(w + pat, pat, p)
  {
    var s := w + pat;
    forall p | 0 <= p < |w| ensures !OccursAt(s, pat, p) {
      if p + |pat| <= |s| {
        if p >= 1 {
          assert s[p..p + |pat|][0] == w[p];
        } else if |w| >= |pat| {
          assert s[..|pat|] == w[..|pat|];
        } else {
          assert s[..|pat|][|w|] == pat[0];
        }
      }
    }
  }

  lemma SplitRepository()
    ensures Split("/repository", '/') == ["", "repository"]
  {
    SplitRepositoryAt("/repository", "repository");
  }

  lemma SplitRepositoryAt(e: string, w: string)
    requires w == "repository" && e == ['/'] + w
    ensures Split(e, '/') == ["", w]
  {
    NoSlashInRepository();
    SplitLeadingSep(w, '/');
  }

  lemma NoSlashInRepository()
    ensures forall i :: 0 <= i < |"repository"| ==> "repository"[i] != '/'
  {
  }

  lemma CapitalizeRepository()
    ensures Capitalize("repository") == "Repository"
  {
    CapitalizeRepositoryAt("repository", "Repository");
  }

  lemma CapitalizeRepositoryAt(w: string, c: string)
    requires w == "repository" && c == "Repository"
    ensures Capitalize(w) == c
  {
    LowerTailRepository();
    CapitalizeLowerTail(w);
    assert UpperChar(w[0]) == c[0] && w[1..] == c[1..];
    assert c == [UpperChar(w[0])] + w[1..];
  }

  lemma LowerTailRepository()
    ensures forall i :: 1 <= i < |"repository"| ==> !IsUpper("repository"[i])
  {
  }

  /** The endpoint `/repository` has the resource `Repository`. */
  lemma RepositoryResource()
    ensures HasResourceSegment("/repository") && SegmentResource("/repository") == "Repository"
  {
    SplitRepository();
    CapitalizeRepository();
  }

  /** For the endpoint `/repository` the repository class
      `RepositoryRepository` derives the data source
      `RemoteDataSourceRemoteDataSource`, which is not the generated
      `RepositoryRemoteDataSource`. */
  lemma DataSourceOfRepositoryAsWrittenWrong()
    ensures HasResourceSegment("/repository")
    ensures DataSourceOfRepositoryAsWritten(SegmentResource("/repository") + "Repository")
            != DataSourceOfRepository(SegmentResource("/repository") + "Repository")
  {
    RepositoryResource();
    var w := "Repository";
    assert w[..10] == w;
    LeadingRepositoryReplaced(w);
  }
}

=== FILE: derive.dfy ===
/** The derivations both generators share: the Kotlin type table, DTO names
    under either naming strategy, the collection of DTOs into an ordered
    dictionary, the property list of a DTO class, path parameters, and the
    declared parameters of generated functions. */
module Derive {
  import opened Seqs
  import opened Ascii
  import opened Strings
  import opened OrderedMaps
  import opened Features

  /** Where the resource part of a DTO name comes from. */
  datatype Naming =
    | EndpointSegment             // the endpoint's first path segment, capitalized
    | FeatureLabel(featureName: string) // a label the caller supplies, verbatim

  // ---------------------------------------------------------------- types

  /** The schema type tags the table maps, in any letter case. */
  predicate IsPrimitiveTag(tag: string) {
    Lower(tag) in {"string", "integer", "boolean", "number"}
  }

  /** `_kotlin_type`: the four primitive tags, compared case-insensitively,
      map to Kotlin's types; any other tag passes through capitalized. */
  function KotlinType(tag: string): (r: string)
    ensures Lower(tag) == "string" ==> r == "String"
    ensures Lower(tag) == "integer" ==> r == "Int"
    ensures Lower(tag) == "boolean" ==> r == "Boolean"
    ensures Lower(tag) == "number" ==> r == "Double"
    ensures !IsPrimitiveTag(tag) ==>
              && |r| == |tag|
              && Lower(r) == Lower(tag)
              && (|r| > 0 ==> !IsLower(r[0]))
              && (forall i :: 1 <= i < |r| ==> !IsUpper(r[i]))
  {
    CapitalizeShape(tag);
    CapitalizeIgnoresCase(tag);
    var t := Lower(tag);
    if t == "string" then "String"
    else if t == "integer" then "Int"
    else if t == "boolean" then "Boolean"
    else if t == "number" then "Double"
    else Capitalize(tag)
  }

  /** The type table does not care about the case of the tag. */
  lemma KotlinTypeIgnoresCase(tag: string)
    ensures KotlinType(Lower(tag)) == KotlinType(tag)
    ensures KotlinType(Upper(tag)) == KotlinType(tag)
  {
    CaseFoldAbsorbs(tag);
    CapitalizeIgnoresCase(tag);
  }

  /** A derived Kotlin type maps to itself: rendering is a fixed point. */
  lemma KotlinTypeIdempotent(tag: string)
    ensures KotlinType(KotlinType(tag)) == KotlinType(tag)
  {
    if IsPrimitiveTag(tag) {
      KotlinTypeNamesFixed();
    } else {
      CapitalizedTypeFixed(tag);
    }
  }

  lemma KotlinTypeNamesFixed()
    ensures KotlinType("String") == "String" && KotlinType("Int") == "Int"
    ensures KotlinType("Boolean") == "Boolean" && KotlinType("Double") == "Double"
  {
    StringFixed();
    BooleanFixed();
    IntFixed();
    DoubleFixed();
  }

  lemma StringFixed()
    ensures KotlinType("String") == "String"
  {
    StringFixedAt("String", "string");
  }

  lemma StringFixedAt(w: string, l: string)
    requires w == "String" && l == "string"
    ensures KotlinType(w) == w
  {
    assert Lower(w) == l;
  }

  lemma BooleanFixed()
    ensures KotlinType("Boolean") == "Boolean"
  {
    assert Lower("Boolean") == "boolean";
  }

  lemma IntFixed()
    ensures KotlinType("Int") == "Int"
  {
    assert Lower("Int") == "int";
    LowerNonPrimitive("Int", "int");
    LowerOfLowerCase("nt");
    assert "Int"[1..] == "nt";
  }

  lemma DoubleFixed()
    ensures KotlinType("Double") == "Double"
  {
    assert Lower("Double") == "double";
    LowerNonPrimitive("Double", "double");
    CapitalizeDouble();
  }

  lemma CapitalizeDouble()
    ensures Capitalize("Double") == "Double"
  {
    LowerOfLowerCase("ouble");
    assert "Double"[1..] == "ouble";
  }

  /** A tag that lower-cases to `l` outside the table capitalizes. */
  lemma LowerNonPrimitive(tag: string, l: string)
    requires Lower(tag) == l && l !in {"string", "integer", "boolean", "number"}
    ensures KotlinType(tag) == Capitalize(tag)
  {
  }

  lemma CapitalizedTypeFixed(tag: string)
    requires !IsPrimitiveTag(tag)
    ensures KotlinType(Capitalize(tag)) == Capitalize(tag)
    ensures KotlinType(tag) == Capitalize(tag)
  {
    CapitalizeIgnoresCase(tag);
    LowerNonPrimitive(Capitalize(tag), Lower(tag));
  }

  // ------------------------------------------------------------ DTO names

  /** `endpoint.split("/")[1]` exists. */
  predicate HasResourceSegment(endpoint: string) {
    |Split(endpoint, '/')| >= 2
  }

  /** `endpoint.split("/")[1].capitalize()`. */
  function SegmentResource(endpoint: string): string
    requires HasResourceSegment(endpoint)
  {
    Capitalize(Split(endpoint, '/')[1])
  }

  /** The feature can be named under `naming` without an index error. */
  predicate Nameable(naming: Naming, f: Feature) {
    naming.FeatureLabel? || HasResourceSegment(f.endpoint)
  }

  function ResourcePrefix(naming: Naming, f: Feature): string
    requires Nameable(naming, f)
  {
    match naming
    case EndpointSegment => SegmentResource(f.endpoint)
    case FeatureLabel(name) => name
  }

  /** `_get_dto_name` (endpoint-segment naming) and the f-strings of the
      label-based generator: resource, capitalized method, role suffix. */
  function DtoName(naming: Naming, f: Feature, suffix: string): (r: string)
    requires Nameable(naming, f)
    ensures |r| == |ResourcePrefix(naming, f)| + |f.httpMethod| + |suffix|
    ensures r[..|ResourcePrefix(naming, f)|] == ResourcePrefix(naming, f)
    ensures r[|r| - |suffix|..] == suffix
    ensures Lower(r[|ResourcePrefix(naming, f)|..|r| - |suffix|]) == Lower(f.httpMethod)
    ensures |f.httpMethod| > 0 ==> !IsLower(r[|ResourcePrefix(naming, f)|])
    ensures forall i :: |ResourcePrefix(naming, f)| < i < |r| - |suffix| ==> !IsUpper(r[i])
  {
    var p := ResourcePrefix(naming, f);
    var m := Capitalize(f.httpMethod);
    var r := p + m + suffix;
    CapitalizeIgnoresCase(f.httpMethod);
    assert r[|p|..|r| - |suffix|] == m;
    r
  }

  /** The role suffix of the `i`-th entry (from 0) of a list of items. */
  function ItemSuffix(i: nat): string {
    "Item" + DecimalString(i + 1)
  }

  /** A DTO name depends on nothing but the resource, the method (up to
      case) and the suffix: under endpoint-segment naming only the first
      path segment of the endpoint matters, under label naming none of it. */
  lemma DtoNameDeterminism(naming: Naming, f: Feature, g: Feature, suffix: string)
    requires Nameable(naming, f) && Nameable(naming, g)
    requires Lower(f.httpMethod) == Lower(g.httpMethod)
    requires naming.EndpointSegment? ==> Lower(Split(f.endpoint, '/')[1]) == Lower(Split(g.endpoint, '/')[1])
    ensures DtoName(naming, f, suffix) == DtoName(naming, g, suffix)
  {
    CapitalizeIgnoresCase(f.httpMethod);
    CapitalizeIgnoresCase(g.httpMethod);
    if naming.EndpointSegment? {
      CapitalizeIgnoresCase(Split(f.endpoint, '/')[1]);
      CapitalizeIgnoresCase(Split(g.endpoint, '/')[1]);
    }
  }

  /** For one feature, distinct role suffixes give distinct DTO names. */
  lemma DtoNameSuffixDistinct(naming: Naming, f: Feature, s1: string, s2: string)
    requires Nameable(naming, f)
    requires s1 != s2
    ensures DtoName(naming, f, s1) != DtoName(naming, f, s2)
  {
    var p := ResourcePrefix(naming, f) + Capitalize(f.httpMethod);
    assert DtoName(naming, f, s1)[|p|..] == s1;
    assert DtoName(naming, f, s2)[|p|..] == s2;
  }

  /** Distinct item positions give distinct item suffixes. */
  lemma ItemSuffixInjective(i: nat, j: nat)
    requires ItemSuffix(i) == ItemSuffix(j)
    ensures i == j
  {
    assert ItemSuffix(i)[4..] == DecimalString(i + 1);
    assert ItemSuffix(j)[4..] == DecimalString(j + 1);
    DecimalInjective(i + 1, j + 1);
  }

  // ------------------------------------------------------- DTO collection

  /** A DTO to generate: its class name and its declared properties. */
  datatype Dto = Dto(name: string, properties: seq<Field>)

  /** An object schema has a `properties` key (the generators read it). */
  predicate HasProperties(s: Schema) {
    s.typeTag == "object" ==> s.properties.Some?
  }

  /**
   * Every schema the DTO collection reads properties from has them: the
   * response, its `items` only when the response is an array (the only
   * branch that reads `items`), and the request.
   */
  predicate ObjectsHaveProperties(f: Feature) {
    && (f.response.Some? ==>
          && HasProperties(f.response.value)
          && (f.response.value.typeTag == "array" && f.response.value.items.Some? ==>
                match f.response.value.items.value
                case ItemList(es) => forall i :: 0 <= i < |es| ==> HasProperties(es[i])
                case SingleItem(s) => HasProperties(s)))
    && (f.request.Some? ==> HasProperties(f.request.value))
  }

  /** The DTO of the `i`-th entry of a list of items. */
  function ItemDto(naming: Naming, f: Feature, e: Schema, i: nat): Dto
    requires Nameable(naming, f)
    requires e.typeTag == "object" && e.properties.Some?
  {
    Dto(DtoName(naming, f, ItemSuffix(i)), e.properties.value)
  }

  /** `d` is the DTO of some object-typed entry of `es`. */
  ghost predicate IsItemDto(naming: Naming, f: Feature, es: seq<Schema>, d: Dto)
    requires Nameable(naming, f)
  {
    exists i :: 0 <= i < |es| && es[i].typeTag == "object" && es[i].properties.Some? && d == ItemDto(naming, f, es[i], i)
  }

  /** The positions of the object-typed entries of a list of items, in
      increasing order. */
  function ObjectPositions(es: seq<Schema>): (ps: seq<nat>)
    ensures forall k :: 0 <= k < |ps| ==> ps[k] < |es| && es[ps[k]].typeTag == "object"
    ensures forall a, b :: 0 <= a < b < |ps| ==> ps[a] < ps[b]
    ensures forall i :: 0 <= i < |es| && es[i].typeTag == "object" ==> i in ps
  {
    if es == [] then []
    else
      var n := |es| - 1;
      var p0 := ObjectPositions(es[..n]);
      assert forall i :: 0 <= i < n ==> es[..n][i] == es[i];
      if es[n].typeTag == "object" then p0 + [n] else p0
  }

  /** The DTOs of a list of items: one per object-typed entry, in list
      order, numbered by the entry's position among ALL entries, so other
      entries leave gaps. */
  function ItemListDtos(naming: Naming, f: Feature, es: seq<Schema>): (r: seq<Dto>)
    requires Nameable(naming, f)
    requires forall i :: 0 <= i < |es| ==> HasProperties(es[i])
    ensures forall d :: d in r <==> IsItemDto(naming, f, es, d)
  {
    if es == [] then []
    else
      var n := |es| - 1;
      var r0 := ItemListDtos(naming, f, es[..n]);
      ItemListStep(naming, f, es);
      assert HasProperties(es[n]);
      assert forall i :: 0 <= i < n ==> es[..n][i] == es[i];
      if es[n].typeTag == "object" then r0 + [ItemDto(naming, f, es[n], n)] else r0
  }

  /** `r` holds one DTO per position in `ps`, in order: the `k`-th is named
      after `ps[k]` and carries the properties of entry `ps[k]`. */
  predicate InListOrder(naming: Naming, f: Feature, es: seq<Schema>, r: seq<Dto>, ps: seq<nat>)
    requires Nameable(naming, f)
  {
    && |r| == |ps|
    && forall k :: 0 <= k < |ps| ==>
         && ps[k] < |es|
         && r[k].name == DtoName(naming, f, ItemSuffix(ps[k]))
         && Some(r[k].properties) == es[ps[k]].properties
  }

  /** The list DTOs come one per object-typed entry, in list order. */
  lemma {:induction false} ItemListDtosOrder(naming: Naming, f: Feature, es: seq<Schema>)
    requires Nameable(naming, f)
    requires forall i :: 0 <= i < |es| ==> HasProperties(es[i])
    ensures InListOrder(naming, f, es, ItemListDtos(naming, f, es), ObjectPositions(es))
  {
    if es != [] {
      var n := |es| - 1;
      assert forall i :: 0 <= i < n ==> HasProperties(es[..n][i]) by {
        forall i | 0 <= i < n ensures HasProperties(es[..n][i]) {
          assert es[..n][i] == es[i];
        }
      }
      ItemListDtosOrder(naming, f, es[..n]);
      assert HasProperties(es[n]);
      var r0, p0 := ItemListDtos(naming, f, es[..n]), ObjectPositions(es[..n]);
      if es[n].typeTag == "object" {
        assert ItemListDtos(naming, f, es) == r0 + [ItemDto(naming, f, es[n], n)];
        assert ObjectPositions(es) == p0 + [n];
        InListOrderSnoc(naming, f, es, r0, p0, ItemDto(naming, f, es[n], n));
      } else {
        assert ItemListDtos(naming, f, es) == r0;
        assert ObjectPositions(es) == p0;
        InListOrderExtend(naming, f, es, r0, p0);
      }
    }
  }

  /** Order is kept when the list grows by an entry not in `ps`. */
  lemma InListOrderExtend(naming: Naming, f: Feature, es: seq<Schema>, r: seq<Dto>, ps: seq<nat>)
    requires Nameable(naming, f) && es != []
    requires InListOrder(naming, f, es[..|es| - 1], r, ps)
    ensures InListOrder(naming, f, es, r, ps)
  {
    forall k | 0 <= k < |ps| ensures es[..|es| - 1][ps[k]] == es[ps[k]] { }
  }

  /** Order is kept when the last entry's DTO is appended with its position. */
  lemma InListOrderSnoc(naming: Naming, f: Feature, es: seq<Schema>, r: seq<Dto>, ps: seq<nat>, d: Dto)
    requires Nameable(naming, f) && es != []
    requires InListOrder(naming, f, es[..|es| - 1], r, ps)
    requires d.name == DtoName(naming, f, ItemSuffix(|es| - 1)) && Some(d.properties) == es[|es| - 1].properties
    ensures InListOrder(naming, f, es, r + [d], ps + [|es| - 1])
  {
    InListOrderExtend(naming, f, es, r, ps);
    var r', ps' := r + [d], ps + [|es| - 1];
    forall k | 0 <= k < |ps'|
      ensures r'[k].name == DtoName(naming, f, ItemSuffix(ps'[k]))
      ensures Some(r'[k].properties) == es[ps'[k]].properties
    {
      if k < |ps| {
        assert ps'[k] == ps[k] && r'[k] == r[k];
      }
    }
  }

  lemma ItemListStep(naming: Naming, f: Feature, es: seq<Schema>)
    requires Nameable(naming, f) && |es| > 0
    requires forall i :: 0 <= i < |es| ==> HasProperties(es[i])
    ensures forall d :: IsItemDto(naming, f, es, d) <==>
              || IsItemDto(naming, f, es[..|es| - 1], d)
              || (es[|es| - 1].typeTag == "object" && es[|es| - 1].properties.Some? && d == ItemDto(naming, f, es[|es| - 1], |es| - 1))
  {
    forall d
      ensures IsItemDto(naming, f, es, d) <==>
                || IsItemDto(naming, f, es[..|es| - 1], d)
                || (es[|es| - 1].typeTag == "object" && es[|es| - 1].properties.Some? && d == ItemDto(naming, f, es[|es| - 1], |es| - 1))
    {
      ItemListStepAt(naming, f, es, d);
    }
  }

  lemma ItemListStepAt(naming: Naming, f: Feature, es: seq<Schema>, d: Dto)
    requires Nameable(naming, f) && |es| > 0
    ensures IsItemDto(naming, f, es, d) <==>
              || IsItemDto(naming, f, es[..|es| - 1], d)
              || (es[|es| - 1].typeTag == "object" && es[|es| - 1].properties.Some? && d == ItemDto(naming, f, es[|es| - 1], |es| - 1))
  {
    if IsItemDto(naming, f, es, d) {
      ItemDtoSplit(naming, f, es, d);
    }
    if IsItemDto(naming, f, es[..|es| - 1], d) {
      ItemDtoOfInit(naming, f, es, d);
    }
  }

  lemma ItemDtoSplit(naming: Naming, f: Feature, es: seq<Schema>, d: Dto)
    requires Nameable(naming, f) && |es| > 0 && IsItemDto(naming, f, es, d)
    ensures || IsItemDto(naming, f, es[..|es| - 1], d)
            || (es[|es| - 1].typeTag == "object" && es[|es| - 1].properties.Some? && d == ItemDto(naming, f, es[|es| - 1], |es| - 1))
  {
    var i :| 0 <= i < |es| && es[i].typeTag == "object" && es[i].properties.Some? && d == ItemDto(naming, f, es[i], i);
    if i < |es| - 1 {
      assert es[..|es| - 1][i] == es[i];
    }
  }

  lemma ItemDtoOfInit(naming: Naming, f: Feature, es: seq<Schema>, d: Dto)
    requires Nameable(naming, f) && |es| > 0 && IsItemDto(naming, f, es[..|es| - 1], d)
    ensures IsItemDto(naming, f, es, d)
  {
    var init := es[..|es| - 1];
    var i :| 0 <= i < |init| && init[i].typeTag == "object" && init[i].properties.Some? && d == ItemDto(naming, f, init[i], i);
    assert init[i] == es[i];
  }

  /** The response DTOs of one feature: `…Response` for an object,
      `…Item` for an array whose items are one object schema, the numbered
      item DTOs for an array whose items are a list. */
  function ResponseDtos(naming: Naming, f: Feature): (r: seq<Dto>)
    requires Nameable(naming, f) && ObjectsHaveProperties(f)
    ensures r != [] ==> f.response.Some? && f.response.value.typeTag in {"object", "array"}
    ensures f.response.Some? && f.response.value.typeTag == "object" ==>
              r == [Dto(DtoName(naming, f, "Response"), f.response.value.properties.value)]
    ensures f.response.Some? && f.response.value.typeTag == "array" && f.response.value.items.None? ==> r == []
    ensures f.response.Some? && f.response.value.typeTag == "array"
            && f.response.value.items.Some? && f.response.value.items.value.ItemList? ==>
              r == ItemListDtos(naming, f, f.response.value.items.value.entries)
    ensures f.response.Some? && f.response.value.typeTag == "array"
            && f.response.value.items.Some? && f.response.value.items.value.SingleItem? ==>
              (if f.response.value.items.value.schema.typeTag == "object"
               then r == [Dto(DtoName(naming, f, "Item"), f.response.value.items.value.schema.properties.value)]
               else r == [])
    ensures DistinctNames(r)
    ensures forall k :: 0 <= k < |r| ==> r[k].name != DtoName(naming, f, "Request")
  {
    ResponseNamesDistinct(naming, f);
    if f.response.None? then []
    else
      var resp := f.response.value;
      if resp.typeTag == "object" then [Dto(DtoName(naming, f, "Response"), resp.properties.value)]
      else if resp.typeTag == "array" && resp.items.Some? then
        match resp.items.value
        case ItemList(es) => ItemListDtos(naming, f, es)
        case SingleItem(s) =>
          if s.typeTag == "object" then [Dto(DtoName(naming, f, "Item"), s.properties.value)] else []
      else []
  }

  /** The request DTO of one feature, for an object request only. */
  function RequestDtos(naming: Naming, f: Feature): (r: seq<Dto>)
    requires Nameable(naming, f) && ObjectsHaveProperties(f)
    ensures |r| <= 1
    ensures r != [] <==> f.request.Some? && f.request.value.typeTag == "object"
    ensures r != [] ==> r[0] == Dto(DtoName(naming, f, "Request"), f.request.value.properties.value)
  {
    if f.request.Some? && f.request.value.typeTag == "object" then
      [Dto(DtoName(naming, f, "Request"), f.request.value.properties.value)]
    else []
  }

  /** The DTOs of one feature: its response DTOs, then its request DTO. */
  function FeatureDtos(naming: Naming, f: Feature): seq<Dto>
    requires Nameable(naming, f) && ObjectsHaveProperties(f)
  {
    ResponseDtos(naming, f) + RequestDtos(naming, f)
  }

  /** No DTO name repeats within one feature, so only different features can
      overwrite each other in the collection. */
  lemma FeatureDtoNamesDistinct(naming: Naming, f: Feature)
    requires Nameable(naming, f) && ObjectsHaveProperties(f)
    ensures DistinctNames(FeatureDtos(naming, f))
  {
    var rs: seq<Dto> := ResponseDtos(naming, f);
    var qs: seq<Dto> := RequestDtos(naming, f);
    assert FeatureDtos(naming, f) == rs + qs;
    forall a, b | 0 <= a < b < |rs + qs| ensures (rs + qs)[a].name != (rs + qs)[b].name {
      if b >= |rs| {
        assert b == |rs| && (rs + qs)[b] == qs[0];
      }
    }
  }

  /** No two DTOs of `ds` share a name. */
  predicate DistinctNames(ds: seq<Dto>) {
    forall a, b :: 0 <= a < b < |ds| ==> ds[a].name != ds[b].name
  }

  /** The response DTOs of one feature have distinct names, none of them the
      request name. */
  lemma ResponseNamesDistinct(naming: Naming, f: Feature)
    requires Nameable(naming, f) && ObjectsHaveProperties(f)
    ensures f.response.Some? && f.response.value.typeTag != "object" && f.response.value.typeTag == "array"
            && f.response.value.items.Some? && f.response.value.items.value.ItemList? ==>
              var es := f.response.value.items.value.entries;
              var r := ItemListDtos(naming, f, es);
              DistinctNames(r) && forall k :: 0 <= k < |r| ==> r[k].name != DtoName(naming, f, "Request")
    ensures DtoName(naming, f, "Response") != DtoName(naming, f, "Request")
    ensures DtoName(naming, f, "Item") != DtoName(naming, f, "Request")
  {
    DtoNameSuffixDistinct(naming, f, "Response", "Request");
    DtoNameSuffixDistinct(naming, f, "Item", "Request");
    if f.response.Some? && f.response.value.typeTag == "array"
       && f.response.value.items.Some? && f.response.value.items.value.ItemList? {
      var es := f.response.value.items.value.entries;
      ItemListNamesDistinct(naming, f, es);
    }
  }

  /** Item DTOs come from increasing positions, so their names differ, and
      none is the request name. */
  lemma ItemListNamesDistinct(naming: Naming, f: Feature, es: seq<Schema>)
    requires Nameable(naming, f)
    requires forall i :: 0 <= i < |es| ==> HasProperties(es[i])
    ensures DistinctNames(ItemListDtos(naming, f, es))
    ensures forall k :: 0 <= k < |ItemListDtos(naming, f, es)| ==> ItemListDtos(naming, f, es)[k].name != DtoName(naming, f, "Request")
  {
    var r := ItemListDtos(naming, f, es);
    ItemListDtosOrder(naming, f, es);
    var ps := ObjectPositions(es);
    forall a, b | 0 <= a < b < |r| ensures r[a].name != r[b].name {
      if ItemSuffix(ps[a]) == ItemSuffix(ps[b]) {
        ItemSuffixInjective(ps[a], ps[b]);
      }
      DtoNameSuffixDistinct(naming, f, ItemSuffix(ps[a]), ItemSuffix(ps[b]));
    }
    forall k | 0 <= k < |r| ensures r[k].name != DtoName(naming, f, "Request") {
      assert ItemSuffix(ps[k])[0] == 'I';
      DtoNameSuffixDistinct(naming, f, ItemSuffix(ps[k]), "Request");
    }
  }

  /** Every feature of the specification can be named and collected. */
  predicate Collectable(naming: Naming, spec: Specification) {
    forall i :: 0 <= i < |spec| ==> Nameable(naming, spec[i]) && ObjectsHaveProperties(spec[i])
  }

  /** Every DTO the loop of `generate_dtos` writes into its dictionary, in
      the order it writes them. */
  function AllDtos(naming: Naming, spec: Specification): seq<Dto>
    requires Collectable(naming, spec)
  {
    if spec == [] then []
    else AllDtos(naming, spec[..|spec| - 1]) + FeatureDtos(naming, spec[|spec| - 1])
  }

  /** The loop only appends: the DTOs written for the first `m` features
      open the DTOs written for the whole specification, in the same
      order. */
  lemma {:induction false} AllDtosPrefix(naming: Naming, spec: Specification, m: nat)
    requires Collectable(naming, spec) && m <= |spec|
    ensures Collectable(naming, spec[..m])
    ensures AllDtos(naming, spec[..m]) <= AllDtos(naming, spec)
  {
    CollectablePrefix(naming, spec, m);
    if m < |spec| {
      var init := spec[..|spec| - 1];
      AllDtosStep(naming, spec);
      AllDtosPrefix(naming, init, m);
      PrefixOfInit(spec, m);
      PrefixTrans(AllDtos(naming, spec[..m]), AllDtos(naming, init), AllDtos(naming, spec));
    } else {
      assert spec[..m] == spec;
    }
  }

  /** Writing the DTOs of one more feature keeps those written before. */
  lemma AllDtosStep(naming: Naming, spec: Specification)
    requires Collectable(naming, spec) && |spec| > 0
    ensures Collectable(naming, spec[..|spec| - 1])
    ensures AllDtos(naming, spec[..|spec| - 1]) <= AllDtos(naming, spec)
  {
    CollectablePrefix(naming, spec, |spec| - 1);
  }

  lemma PrefixOfInit<T>(s: seq<T>, m: nat)
    requires m < |s|
    ensures s[..|s| - 1][..m] == s[..m]
  {
  }

  lemma PrefixTrans<T>(a: seq<T>, b: seq<T>, c: seq<T>)
    requires a <= b && b <= c
    ensures a <= c
  {
    assert c[..|a|] == b[..|a|];
  }

  lemma CollectablePrefix(naming: Naming, spec: Specification, m: nat)
    requires Collectable(naming, spec) && m <= |spec|
    ensures Collectable(naming, spec[..m])
  {
    var p := spec[..m];
    assert forall i :: 0 <= i < |p| ==> p[i] == spec[i];
  }


  function DtoEntries(ds: seq<Dto>): (es: seq<(string, seq<Field>)>)
    ensures |es| == |ds| && forall i :: 0 <= i < |ds| ==> es[i] == (ds[i].name, ds[i].properties)
  {
    seq(|ds|, i requires 0 <= i < |ds| => (ds[i].name, ds[i].properties))
  }

  function DtoNames(ds: seq<Dto>): (ns: seq<string>)
    ensures |ns| == |ds| && forall i :: 0 <= i < |ds| ==> ns[i] == ds[i].name
  {
    seq(|ds|, i requires 0 <= i < |ds| => ds[i].name)
  }

  /** `dto_specs` after the loop of `generate_dtos`: DTO name to properties. */
  function CollectDtos(naming: Naming, spec: Specification): (m: OrderedMap<string, seq<Field>>)
    requires Collectable(naming, spec)
    ensures m.Valid()
    ensures forall n :: n in m.values <==> n in DtoNames(AllDtos(naming, spec))
  {
    var ds := AllDtos(naming, spec);
    assert EntryKeys(DtoEntries(ds)) == DtoNames(ds);
    FromEntries(DtoEntries(ds))
  }

  /** Collected DTO classes come out in the order of their names' first
      appearance, and a name written twice keeps the properties written
      last. */
  lemma CollectDtosOrderAndOverwrite(naming: Naming, spec: Specification)
    requires Collectable(naming, spec)
    ensures CollectDtos(naming, spec).keys == FirstOccurrences(DtoNames(AllDtos(naming, spec)))
    ensures forall i :: 0 <= i < |AllDtos(naming, spec)| &&
                        (forall j :: i < j < |AllDtos(naming, spec)| ==> AllDtos(naming, spec)[j].name != AllDtos(naming, spec)[i].name)
                 ==> CollectDtos(naming, spec).values[AllDtos(naming, spec)[i].name] == AllDtos(naming, spec)[i].properties
  {
    var ds := AllDtos(naming, spec);
    var es := DtoEntries(ds);
    assert EntryKeys(es) == DtoNames(ds);
    FromEntriesKeyOrder(es);
    forall i | 0 <= i < |ds| && (forall j :: i < j < |ds| ==> ds[j].name != ds[i].name)
      ensures CollectDtos(naming, spec).values[ds[i].name] == ds[i].properties
    {
      CollectDtosLastWins(naming, spec, i);
    }
  }

  lemma CollectDtosLastWins(naming: Naming, spec: Specification, i: nat)
    requires Collectable(naming, spec) && i < |AllDtos(naming, spec)|
    requires forall j :: i < j < |AllDtos(naming, spec)| ==> AllDtos(naming, spec)[j].name != AllDtos(naming, spec)[i].name
    ensures AllDtos(naming, spec)[i].name in CollectDtos(naming, spec).values
    ensures CollectDtos(naming, spec).values[AllDtos(naming, spec)[i].name] == AllDtos(naming, spec)[i].properties
  {
    var es := DtoEntries(AllDtos(naming, spec));
    assert LastWithKey(es, i);
    FromEntriesLastWins(es, i);
  }

  /** A request DTO is generated for a feature exactly when its request is
      an object; no response DTO of the feature can take the request name. */
  lemma RequestDtoIffObject(naming: Naming, f: Feature)
    requires Nameable(naming, f) && ObjectsHaveProperties(f)
    ensures DtoName(naming, f, "Request") in DtoNames(FeatureDtos(naming, f))
            <==> f.request.Some? && f.request.value.typeTag == "object"
  {
    var n := DtoName(naming, f, "Request");
    var ds := FeatureDtos(naming, f);
    var rs := ResponseDtos(naming, f);
    var qs := RequestDtos(naming, f);
    assert ds == rs + qs;
    if qs != [] {
      assert DtoNames(ds)[|rs|] == n;
    } else {
      assert forall k :: 0 <= k < |ds| ==> ds[k].name != n;
    }
  }

  // ---------------------------------------------------------- DTO classes

  /** The `val name: Type` lines of a DTO class, one per property, in
      declaration order. */
  function DtoFields(props: seq<Field>): (r: seq<Field>)
    ensures |r| == |props|
    ensures forall i :: 0 <= i < |props| ==> r[i].name == props[i].name
    ensures forall i :: 0 <= i < |props| ==> r[i].typeTag == KotlinType(props[i].typeTag)
    ensures forall i :: 0 <= i < |props| ==> KotlinType(r[i].typeTag) == r[i].typeTag
  {
    forall i | 0 <= i < |props| ensures KotlinType(KotlinType(props[i].typeTag)) == KotlinType(props[i].typeTag) {
      KotlinTypeIdempotent(props[i].typeTag);
    }
    seq(|props|, i requires 0 <= i < |props| => Field(props[i].name, KotlinType(props[i].typeTag)))
  }

  // ------------------------------------------------------ path parameters

  /** A path segment of the form `{name}`. */
  predicate IsPlaceholder(seg: string) {
    |seg| > 0 && seg[0] == '{' && seg[|seg| - 1] == '}'
  }

  /** The names of the placeholder segments, braces dropped, in order. */
  function PlaceholderNames(segs: seq<string>): seq<string> {
    if segs == [] then []
    else
      var s := segs[0];
      (if IsPlaceholder(s) then [s[1..|s| - 1]] else []) + PlaceholderNames(segs[1..])
  }

  /** A name is a placeholder name exactly when `{name}` is a segment. */
  lemma {:induction false} PlaceholderNamesIff(segs: seq<string>)
    ensures forall p :: p in PlaceholderNames(segs) <==> "{" + p + "}" in segs
  {
    if segs != [] {
      var s := segs[0];
      PlaceholderNamesIff(segs[1..]);
      assert forall p :: "{" + p + "}" in segs <==> "{" + p + "}" == s || "{" + p + "}" in segs[1..];
      if IsPlaceholder(s) {
        assert "{" + s[1..|s| - 1] + "}" == s;
        assert forall p :: "{" + p + "}" == s ==> p == s[1..|s| - 1];
      } else {
        assert forall p :: "{" + p + "}" != s;
      }
    }
  }

  /** Placeholder names of consecutive segment lists concatenate. */
  lemma {:induction false} PlaceholderNamesAppend(xs: seq<string>, ys: seq<string>)
    ensures PlaceholderNames(xs + ys) == PlaceholderNames(xs) + PlaceholderNames(ys)
  {
    if xs != [] {
      var s := xs[0];
      assert (xs + ys)[0] == s;
      assert (xs + ys)[1..] == xs[1..] + ys;
      PlaceholderNamesAppend(xs[1..], ys);
      var head := if IsPlaceholder(s) then [s[1..|s| - 1]] else [];
      assert PlaceholderNames(xs) == head + PlaceholderNames(xs[1..]);
      assert PlaceholderNames(xs + ys) == head + PlaceholderNames(xs[1..] + ys);
    } else {
      assert xs + ys == ys;
    }
  }

  /** The path parameters of an endpoint: the `/`-segments written `{name}`,
      as `name`, left to right. */
  function PathParams(endpoint: string): (r: seq<string>)
    ensures forall p :: p in r <==> "{" + p + "}" in Split(endpoint, '/')
  {
    PlaceholderNamesIff(Split(endpoint, '/'));
    if '{' in endpoint then PlaceholderNames(Split(endpoint, '/'))
    else
      forall p | "{" + p + "}" in Split(endpoint, '/') ensures false {
        var k :| 0 <= k < |Split(endpoint, '/')| && Split(endpoint, '/')[k] == "{" + p + "}";
        JoinContains(Split(endpoint, '/'), '/', k, 0);
      }
      []
  }

  /** Every character of a piece is a character of the joined string. */
  lemma {:induction false} JoinContains(parts: seq<string>, sep: char, k: nat, j: nat)
    requires |parts| >= 1 && k < |parts| && j < |parts[k]|
    ensures parts[k][j] in Join(parts, sep)
  {
    if k > 0 {
      JoinContains(parts[1..], sep, k - 1, j);
    } else if |parts| > 1 {
      assert Join(parts, sep)[j] == parts[0][j];
    }
  }

  /** The `"{" in endpoint` guard of the generators changes nothing. */
  lemma PathParamsGuardRedundant(endpoint: string)
    ensures PathParams(endpoint) == PlaceholderNames(Split(endpoint, '/'))
  {
    if '{' !in endpoint {
      var pn := PlaceholderNames(Split(endpoint, '/'));
      if pn != [] {
        PlaceholderNamesIff(Split(endpoint, '/'));
        assert pn[0] in pn;
      }
    }
  }

  /** Leading and trailing slashes do not change the path parameters, so the
      generator that strips the endpoint first finds the same ones. */
  lemma PathParamsIgnoreOuterSlashes(endpoint: string)
    ensures PathParams(Strip(endpoint, '/')) == PathParams(endpoint)
  {
    PathParamsGuardRedundant(endpoint);
    PathParamsGuardRedundant(StripLeft(endpoint, '/'));
    PathParamsGuardRedundant(Strip(endpoint, '/'));
    LeftSlashesAddNoParams(endpoint);
    RightSlashesAddNoParams(StripLeft(endpoint, '/'));
  }

  lemma {:induction false} LeftSlashesAddNoParams(s: string)
    ensures PlaceholderNames(Split(StripLeft(s, '/'), '/')) == PlaceholderNames(Split(s, '/'))
    decreases |s|
  {
    if |s| > 0 && s[0] == '/' {
      assert s == ['/'] + s[1..];
      SplitPrependSep(s[1..], '/');
      LeftSlashesAddNoParams(s[1..]);
    }
  }

  lemma {:induction false} RightSlashesAddNoParams(s: string)
    ensures PlaceholderNames(Split(StripRight(s, '/'), '/')) == PlaceholderNames(Split(s, '/'))
    decreases |s|
  {
    if |s| > 0 && s[|s| - 1] == '/' {
      var init := s[..|s| - 1];
      assert s == init + ['/'];
      SplitAppendSep(init, '/');
      PlaceholderNamesAppend(Split(init, '/'), [""]);
      RightSlashesAddNoParams(init);
    }
  }

  // ------------------------------------------------- declared parameters

  /** One declared parameter of a generated Kotlin function:
      `name: Type`, or `name: Type? = null` when `nullable`. */
  datatype Param = Param(name: string, kotlinType: string, nullable: bool)

  function ParamNames(ps: seq<Param>): (ns: seq<string>)
    ensures |ns| == |ps| && forall i :: 0 <= i < |ps| ==> ns[i] == ps[i].name
  {
    seq(|ps|, i requires 0 <= i < |ps| => ps[i].name)
  }

  lemma ParamNamesAppend(xs: seq<Param>, ys: seq<Param>)
    ensures ParamNames(xs + ys) == ParamNames(xs) + ParamNames(ys)
  {
  }

  /** `name: String` for every path parameter. */
  function PathParamDecls(endpoint: string): (r: seq<Param>)
    ensures ParamNames(r) == PathParams(endpoint)
    ensures |r| == |PathParams(endpoint)|
    ensures forall i :: 0 <= i < |r| ==> r[i] == Param(PathParams(endpoint)[i], "String", false)
  {
    var ps := PathParams(endpoint);
    seq(|ps|, i requires 0 <= i < |ps| => Param(ps[i], "String", false))
  }

  /** Where the path, query and request parameters sit in a parameter list
      made of the three. */
  lemma ParamLayout(pp: seq<Param>, qp: seq<Param>, rp: seq<Param>, names: seq<string>)
    requires |pp| == |names|
    requires forall i :: 0 <= i < |pp| ==> pp[i] == Param(names[i], "String", false)
    ensures |pp + qp + rp| == |names| + |qp| + |rp|
    ensures forall i :: 0 <= i < |names| ==> (pp + qp + rp)[i] == Param(names[i], "String", false)
    ensures (pp + qp + rp)[|names|..|names| + |qp|] == qp
    ensures |rp| == 1 ==> (pp + qp + rp)[|pp + qp + rp| - 1] == rp[0]
  {
  }

  /** `name: T? = null` for every query parameter, in declared order. */
  function QueryParamDecls(f: Feature): (r: seq<Param>)
    ensures f.queryParams.None? ==> r == []
    ensures f.queryParams.Some? ==> |r| == |f.queryParams.value|
    ensures forall i :: 0 <= i < |r| ==> r[i].nullable
    ensures forall i :: 0 <= i < |r| ==>
              r[i] == Param(f.queryParams.value[i].name, KotlinType(f.queryParams.value[i].typeTag), true)
  {
    match f.queryParams
    case None => []
    case Some(qs) => seq(|qs|, i requires 0 <= i < |qs| => Param(qs[i].name, KotlinType(qs[i].typeTag), true))
  }

  function QueryParamNames(f: Feature): (ns: seq<string>)
    ensures ns == ParamNames(QueryParamDecls(f))
  {
    match f.queryParams
    case None => []
    case Some(qs) => seq(|qs|, i requires 0 <= i < |qs| => qs[i].name)
  }
}

=== FILE: examples.dfy ===
/** Worked examples: derivations for concrete inputs, matching the Kotlin
    files the generators produced for a `User` feature. Each example is
    taken apart into one-step lemmas about literals. */
module Examples {
  import opened Seqs
  import opened Ascii
  import opened Strings
  import opened Features
  import opened Derive
  import opened DataLayer
  import opened ApiCodegen

  /** `capitalize` lower-cases everything after the first character. */
  lemma CapitalizeExamples()
    ensures Capitalize("userId") == "Userid"
    ensures Capitalize("GET") == "Get"
  {
  }

  // Type names

  lemma LowerObject()
    ensures Lower("object") == "object"
  {
    LowerOfLowerCase("object");
  }

  lemma CapitalizeObject()
    ensures Capitalize("object") == "Object"
  {
    LowerOfLowerCase("bject");
    assert "object"[1..] == "bject";
  }

  /** A non-primitive type tag passes through capitalized:
      `preferences: object` becomes `val preferences: Object`. */
  lemma ObjectTypeExample()
    ensures KotlinType("object") == "Object"
  {
    LowerObject();
    CapitalizeObject();
  }

  /** Case does not matter for the primitive tags. */
  lemma PrimitiveTypeExample()
    ensures KotlinType("STRING") == "String"
  {
    assert Lower("STRING") == "string";
  }

  // Endpoint constants

  /** A feature with only an endpoint and a verb. */
  function At(endpoint: string, httpMethod: string): Feature {
    Feature(endpoint, httpMethod, None, None, None, None)
  }

  /** A plain word translates to its upper-casing `u`. */
  lemma TranslateWord(w: string, u: string)
    requires Plain(w) && Upper(w) == u
    ensures Translate(w) == u
  {
    TranslatePlain(w);
  }

  lemma TranslateUsers()
    ensures Translate("users") == "USERS"
  {
    PlainUsers();
    UpperUsers();
    TranslateWord("users", "USERS");
  }

  lemma PlainUsers()
    ensures Plain("users")
  {
  }

  lemma UpperUsers()
    ensures Upper("users") == "USERS"
  {
  }

  lemma TranslateUserId()
    ensures Translate("userId") == "USERID"
  {
    PlainUserId();
    UpperUserId();
    TranslateWord("userId", "USERID");
  }

  lemma PlainUserId()
    ensures Plain("userId")
  {
  }

  lemma UpperUserId()
    ensures Upper("userId") == "USERID"
  {
  }

  lemma TranslateStatus()
    ensures Translate("status") == "STATUS"
  {
    PlainStatus();
    UpperStatus();
    TranslateWord("status", "STATUS");
  }

  lemma PlainStatus()
    ensures Plain("status")
  {
  }

  lemma UpperStatus()
    ensures Upper("status") == "STATUS"
  {
  }

  lemma TranslateValidate()
    ensures Translate("validate") == "VALIDATE"
  {
    PlainValidate();
    UpperValidate();
    TranslateWord("validate", "VALIDATE");
  }

  lemma PlainValidate()
    ensures Plain("validate")
  {
  }

  lemma UpperValidate()
    ensures Upper("validate") == "VALIDATE"
  {
  }

  lemma TranslateEmail()
    ensures Translate("email") == "EMAIL"
  {
    PlainEmail();
    UpperEmail();
    TranslateWord("email", "EMAIL");
  }

  lemma PlainEmail()
    ensures Plain("email")
  {
  }

  lemma UpperEmail()
    ensures Upper("email") == "EMAIL"
  {
  }

  /** Slash and dash become underscores; braces vanish. */
  lemma TranslateSeparators()
    ensures Translate("/") == "_" && Translate("-") == "_"
    ensures Translate("{") == "" && Translate("}") == ""
  {
  }

  lemma TranslateBraced()
    ensures Translate("{userId}") == "USERID"
  {
    TranslateUserId();
    TranslateBraces("userId");
    assert "{userId}" == ['{'] + "userId" + ['}'];
  }

  lemma TranslateUserIdPath()
    ensures Translate("users/{userId}") == "USERS" + "_" + "USERID"
  {
    assert "users/{userId}" == "users" + "/" + "{userId}";
    TranslateAppend("users" + "/", "{userId}");
    TranslateAppend("users", "/");
    TranslateUsers();
    TranslateBraced();
    TranslateSeparators();
  }

  lemma TranslateStatusPath()
    ensures Translate("users/{userId}/status") == "USERS" + "_" + "USERID" + "_" + "STATUS"
  {
    var a := "users/{userId}";
    assert "users/{userId}/status" == a + "/" + "status";
    TranslateAppend(a + "/", "status");
    TranslateAppend(a, "/");
    TranslateUserIdPath();
    TranslateStatus();
    TranslateSeparators();
  }

  lemma TranslateValidatePath()
    ensures Translate("users/validate-email") == "USERS" + "_" + "VALIDATE" + "_" + "EMAIL"
  {
    assert "users/validate-email" == "users" + "/" + "validate" + "-" + "email";
    TranslateAppend("users" + "/" + "validate" + "-", "email");
    TranslateAppend("users" + "/" + "validate", "-");
    TranslateAppend("users" + "/", "validate");
    TranslateAppend("users", "/");
    TranslateUsers();
    TranslateValidate();
    TranslateEmail();
    TranslateSeparators();
  }

  lemma StatusLiteral()
    ensures "PATCH" + "_" + ("USERS" + "_" + "USERID" + "_" + "STATUS") == "PATCH_USERS_USERID_STATUS"
  {
  }

  lemma ValidateLiteral()
    ensures "POST" + "_" + ("USERS" + "_" + "VALIDATE" + "_" + "EMAIL") == "POST_USERS_VALIDATE_EMAIL"
  {
  }

  lemma UpperVerbs()
    ensures Upper("patch") == "PATCH" && Upper("post") == "POST"
  {
  }

  /** One leading slash is all that `strip("/")` removes from `/path`. */
  lemma StripSlash(path: string)
    requires |path| > 0 && path[0] != '/' && path[|path| - 1] != '/'
    ensures Strip(['/'] + path, '/') == path
  {
    assert (['/'] + path)[1..] == path;
    assert StripLeft(['/'] + path, '/') == path;
  }

  /** `PATCH /users/{userId}/status` is `PATCH_USERS_USERID_STATUS`. */
  lemma ConstantExampleStatus()
    ensures ConstantName(At("/users/{userId}/status", "patch")) == "PATCH_USERS_USERID_STATUS"
  {
    var path := "users/{userId}/status";
    assert "/users/{userId}/status" == ['/'] + path;
    StripSlash(path);
    TranslateStatusPath();
    UpperVerbs();
    StatusLiteral();
  }

  /** `POST /users/validate-email` is `POST_USERS_VALIDATE_EMAIL`. */
  lemma ConstantExampleValidate()
    ensures ConstantName(At("/users/validate-email", "post")) == "POST_USERS_VALIDATE_EMAIL"
  {
    var path := "users/validate-email";
    assert "/users/validate-email" == ['/'] + path;
    StripSlash(path);
    TranslateValidatePath();
    UpperVerbs();
    ValidateLiteral();
  }

  // Path parameters and method names

  lemma NoSlashId()
    ensures forall i :: 0 <= i < |"{id}"| ==> "{id}"[i] != '/'
  {
  }

  lemma SplitUsersId()
    ensures Split("users/{id}", '/') == ["users", "{id}"]
  {
    PlainUsers();
    NoSlashId();
    SplitTwo("users", "{id}", '/');
    assert "users/{id}" == "users" + ['/'] + "{id}";
  }

  lemma PlaceholderNamesUsersId()
    ensures PlaceholderNames(["", "users", "{id}"]) == ["id"]
  {
    assert !IsPlaceholder("") && !IsPlaceholder("users") && IsPlaceholder("{id}");
    assert "{id}"[1..3] == "id";
    assert ["", "users", "{id}"][1..] == ["users", "{id}"];
    assert ["users", "{id}"][1..] == ["{id}"];
    assert ["{id}"][1..] == [];
  }

  /** `/users/{id}` has the one path parameter `id`. */
  lemma PathParamsExample()
    ensures PathParams("/users/{id}") == ["id"]
  {
    var s := "users/{id}";
    assert "/users/{id}" == ['/'] + s;
    SplitPrependSep(s, '/');
    SplitUsersId();
    PathParamsGuardRedundant("/users/{id}");
    PlaceholderNamesUsersId();
  }

  lemma CapitalizeUsers()
    ensures Capitalize("users") == "Users"
  {
    LowerOfLowerCase("sers");
    assert "users"[1..] == "sers";
  }

  lemma LowerGetVerb()
    ensures Lower("get") == "get" && Lower("GET") == "get"
  {
    LowerOfLowerCase("get");
    assert Lower("GET") == "get";
  }

  lemma StrippedUsersId()
    ensures StrippedParts("/users/{id}") == ["users", "{id}"]
  {
    var s := "users/{id}";
    assert "/users/{id}" == ['/'] + s;
    StripSlash(s);
    SplitUsersId();
  }

  lemma StrippedUsers()
    ensures StrippedParts("/users") == ["users"]
  {
    var s := "users";
    assert "/users" == ['/'] + s;
    StripSlash(s);
    SplitNoSep(s, '/');
  }

  lemma UsersIdById()
    ensures ById("/users/{id}") && MethodResource("/users/{id}") == "Users"
  {
    StrippedUsersId();
    CapitalizeUsers();
    assert '{' in "{id}";
  }

  lemma MethodNameByIdUnfold()
    ensures MethodName("/users/{id}", "get") == NameFor("get", "Users", true)
  {
    UsersIdById();
    LowerGetVerb();
  }

  lemma GetUsersByIdLiteral()
    ensures NameFor("get", "Users", true) == "getUsersById"
  {
    assert NameFor("get", "Users", true) == "get" + "Users" + "ById";
    assert "get" + "Users" + "ById" == "getUsersById";
  }

  /** `GET /users/{id}` is `getUsersById`. */
  lemma MethodNameById()
    ensures MethodName("/users/{id}", "get") == "getUsersById"
  {
    MethodNameByIdUnfold();
    GetUsersByIdLiteral();
  }

  /** `GET /users` is `getUserss`: the plural `s` is appended to whatever
      the resource is. */
  lemma MethodNamePlural()
    ensures MethodName("/users", "GET") == "getUserss"
  {
    MethodNamePluralUnfold();
    GetUserssLiteral();
  }

  lemma MethodNamePluralUnfold()
    ensures MethodName("/users", "GET") == NameFor("get", "Users", false)
  {
    StrippedUsers();
    CapitalizeUsers();
    LowerGetVerb();
  }

  lemma GetUserssLiteral()
    ensures NameFor("get", "Users", false) == "getUserss"
  {
    assert NameFor("get", "Users", false) == "get" + "Users" + "s";
    assert "get" + "Users" + "s" == "getUserss";
  }

  /** An object response that also carries a property-less object under
      `items`: only the array branch reads `items`, so the feature is
      collectable and yields just its `…Response` DTO. */
  lemma ObjectResponseIgnoresItems()
    ensures var f := Feature("/users", "get", None, None, None,
                             Some(Schema("object", Some([Field("id", "integer")]),
                                         Some(SingleItem(Schema("object", None, None))))));
            && ObjectsHaveProperties(f)
            && ResponseDtos(FeatureLabel("User"), f)
               == [Dto(DtoName(FeatureLabel("User"), f, "Response"), [Field("id", "integer")])]
  {
  }

  /** Mapper class of the `UserGetResponse` DTO. */
  lemma MapperExample()
    ensures MapperName("UserGetResponse") == "UserGetResponseMapper"
  {
  }

  /** Receiver of the `UserGetResponse` mapper. */
  lemma ReceiverResponseExample()
    ensures Receiver("UserGetResponse") == "userGetResponse"
  {
  }

  /** Receiver of the `UserGetItem` mapper. */
  lemma ReceiverItemExample()
    ensures Receiver("UserGetItem") == "userGetItem"
  {
  }
}

=== FILE: features.dfy ===
/** The parsed form of the YAML API description both generators read: a
    `features` list whose entries carry an endpoint, an HTTP method and
    optional query parameters, request and response schemas. A key the YAML
    may leave out is an `Option`; reading a key that is absent would raise
    in the generators, so the derivations require it where they read it. */
module Features {

  datatype Option<+T> = None | Some(value: T)

  /** One `name: type` pair: an entry of a `properties` mapping or of the
      `queryParams` list, in YAML order. */
  datatype Field = Field(name: string, typeTag: string)

  /** A schema: its `type`, its `properties` and, for an array, its `items`. */
  datatype Schema = Schema(typeTag: string, properties: Option<seq<Field>>, items: Option<Items>)

  /** The `items` of an array schema: either a YAML list of schemas or a
      single schema mapping. */
  datatype Items = ItemList(entries: seq<Schema>) | SingleItem(schema: Schema)

  /** One entry of `features`. `action` is read only by the label-based
      generator. */
  datatype Feature = Feature(
    endpoint: string,
    httpMethod: string,
    action: Option<string>,
    queryParams: Option<seq<Field>>,
    request: Option<Schema>,
    response: Option<Schema>)

  /** The specification: the `features` list in document order (an absent
      list reads as empty). */
  type Specification = seq<Feature>
}

=== FILE: grouping.dfy ===
/** Resource grouping of the endpoint-segment generator: features are
    bucketed under the key `capitalize(endpoint.split("/")[1]) + suffix` in a
    dictionary of lists, so groups appear in the order their key is first
    met and each group lists its features in specification order. */
module Grouping {
  import opened Seqs
  import opened Ascii
  import opened Strings
  import opened Features
  import opened Derive

  /** One generated unit: its class or interface name and its features. */
  datatype Group = Group(key: string, members: seq<Feature>)

  /** Every feature has a first path segment to group on. */
  predicate Groupable(spec: Specification) {
    forall i :: 0 <= i < |spec| ==> HasResourceSegment(spec[i].endpoint)
  }

  /** The key a feature is grouped under: its first path segment with only
      the first letter a capital, then the suffix. */
  function GroupKey(f: Feature, suffix: string): (r: string)
    requires HasResourceSegment(f.endpoint)
    ensures |r| == |Split(f.endpoint, '/')[1]| + |suffix| && r[|r| - |suffix|..] == suffix
    ensures Lower(r[..|r| - |suffix|]) == Lower(Split(f.endpoint, '/')[1])
    ensures |r| > |suffix| ==> !IsLower(r[0])
    ensures forall i :: 1 <= i < |r| - |suffix| ==> !IsUpper(r[i])
  {
    var w := Split(f.endpoint, '/')[1];
    CapitalizeShape(w);
    CapitalizeIgnoresCase(w);
    var r := SegmentResource(f.endpoint) + suffix;
    assert r[..|r| - |suffix|] == Capitalize(w);
    r
  }

  function Keys(gs: seq<Group>): (ks: seq<string>)
    ensures |ks| == |gs| && forall j :: 0 <= j < |gs| ==> ks[j] == gs[j].key
  {
    seq(|gs|, j requires 0 <= j < |gs| => gs[j].key)
  }

  /** The group key of every feature, in specification order. */
  function KeySeq(spec: Specification, suffix: string): (ks: seq<string>)
    requires Groupable(spec)
    ensures |ks| == |spec| && forall i :: 0 <= i < |spec| ==> ks[i] == GroupKey(spec[i], suffix)
  {
    seq(|spec|, i requires 0 <= i < |spec| => GroupKey(spec[i], suffix))
  }

  /** `groups.setdefault(k, []).append(f)`: `f` joins the group keyed `k`,
      which is opened at the end if there is none yet. */
  function AddToGroup(gs: seq<Group>, k: string, f: Feature): (r: seq<Group>)
    requires Distinct(Keys(gs))
    ensures Keys(r) == if k in Keys(gs) then Keys(gs) else Keys(gs) + [k]
    ensures Distinct(Keys(r))
    ensures forall j :: 0 <= j < |gs| ==> r[j].members == gs[j].members + (if gs[j].key == k then [f] else [])
    ensures k !in Keys(gs) ==> r[|gs|].members == [f]
  {
    if k in Keys(gs) then
      var j := FirstIndex(Keys(gs), k);
      var r := gs[j := Group(k, gs[j].members + [f])];
      assert Keys(r) == Keys(gs);
      r
    else
      var r := gs + [Group(k, [f])];
      assert Keys(r) == Keys(gs) + [k];
      r
  }

  /** The `endpoints_by_resource` dictionary of the three grouping loops. */
  function GroupBy(spec: Specification, suffix: string): (r: seq<Group>)
    requires Groupable(spec)
    ensures Distinct(Keys(r))
    ensures forall j :: 0 <= j < |r| ==> Groupable(r[j].members)
  {
    if spec == [] then []
    else
      var f := spec[|spec| - 1];
      var gs := GroupBy(spec[..|spec| - 1], suffix);
      AddToGroupGroupable(gs, GroupKey(f, suffix), f);
      AddToGroup(gs, GroupKey(f, suffix), f)
  }

  /** Adding a groupable feature keeps every group groupable. */
  lemma AddToGroupGroupable(gs: seq<Group>, k: string, f: Feature)
    requires Distinct(Keys(gs)) && HasResourceSegment(f.endpoint)
    requires forall j :: 0 <= j < |gs| ==> Groupable(gs[j].members)
    ensures forall j :: 0 <= j < |AddToGroup(gs, k, f)| ==> Groupable(AddToGroup(gs, k, f)[j].members)
  {
    var r := AddToGroup(gs, k, f);
    forall j | 0 <= j < |r| ensures Groupable(r[j].members) {
      if j < |gs| {
        GroupableSnoc(gs[j].members, f);
      }
    }
  }

  lemma GroupableSnoc(a: Specification, f: Feature)
    requires Groupable(a) && HasResourceSegment(f.endpoint)
    ensures Groupable(a + [f])
  {
  }

  /** The features whose key is `k`, in specification order. */
  function Members(spec: Specification, k: string, suffix: string): seq<Feature>
    requires Groupable(spec)
  {
    if spec == [] then []
    else
      var f := spec[|spec| - 1];
      Members(spec[..|spec| - 1], k, suffix) + (if GroupKey(f, suffix) == k then [f] else [])
  }

  /** The features with key `k` are exactly those of the specification whose
      key is `k`. */
  lemma {:induction false} MembersIff(spec: Specification, k: string, suffix: string)
    requires Groupable(spec)
    ensures forall f :: f in Members(spec, k, suffix) <==> f in spec && GroupKey(f, suffix) == k
  {
    if spec != [] {
      var init := spec[..|spec| - 1];
      MembersIff(init, k, suffix);
      assert spec == init + [spec[|spec| - 1]];
    }
  }

  /** Groups come in the order their key first occurs in the specification. */
  lemma {:induction false} GroupOrder(spec: Specification, suffix: string)
    requires Groupable(spec)
    ensures Keys(GroupBy(spec, suffix)) == FirstOccurrences(KeySeq(spec, suffix))
  {
    if spec != [] {
      var init := spec[..|spec| - 1];
      GroupOrder(init, suffix);
      GroupOrderStep(spec, suffix);
    }
  }

  lemma GroupOrderStep(spec: Specification, suffix: string)
    requires Groupable(spec) && spec != []
    requires Keys(GroupBy(spec[..|spec| - 1], suffix)) == FirstOccurrences(KeySeq(spec[..|spec| - 1], suffix))
    ensures Keys(GroupBy(spec, suffix)) == FirstOccurrences(KeySeq(spec, suffix))
  {
    var init := spec[..|spec| - 1];
    var f := spec[|spec| - 1];
    var k := GroupKey(f, suffix);
    KeySeqAppend(spec, suffix);
    FirstOccurrencesAppend(KeySeq(init, suffix), k);
    assert GroupBy(spec, suffix) == AddToGroup(GroupBy(init, suffix), k, f);
  }

  /** The key sequence grows by the key of the feature appended. */
  lemma KeySeqAppend(spec: Specification, suffix: string)
    requires Groupable(spec) && spec != []
    ensures Groupable(spec[..|spec| - 1])
    ensures KeySeq(spec, suffix) == KeySeq(spec[..|spec| - 1], suffix) + [GroupKey(spec[|spec| - 1], suffix)]
  {
    var init := spec[..|spec| - 1];
    var a := KeySeq(spec, suffix);
    var b := KeySeq(init, suffix) + [GroupKey(spec[|spec| - 1], suffix)];
    assert |a| == |b|;
    forall i | 0 <= i < |a| ensures a[i] == b[i] {
      if i < |init| {
        assert init[i] == spec[i];
      }
    }
  }

  /** Every group of `GroupBy(spec, suffix)` holds the features with its key. */
  ghost predicate MembersMatch(spec: Specification, suffix: string)
    requires Groupable(spec)
  {
    forall j :: 0 <= j < |GroupBy(spec, suffix)| ==>
      GroupBy(spec, suffix)[j].members == Members(spec, GroupBy(spec, suffix)[j].key, suffix)
  }

  /** Each group holds exactly the features with its key, in specification
      order. */
  lemma {:induction false} GroupMembers(spec: Specification, suffix: string)
    requires Groupable(spec)
    ensures forall j :: 0 <= j < |GroupBy(spec, suffix)| ==>
              GroupBy(spec, suffix)[j].members == Members(spec, GroupBy(spec, suffix)[j].key, suffix)
  {
    if spec != [] {
      var init := spec[..|spec| - 1];
      GroupMembers(init, suffix);
      assert MembersMatch(init, suffix);
      forall j | 0 <= j < |GroupBy(spec, suffix)|
        ensures GroupBy(spec, suffix)[j].members == Members(spec, GroupBy(spec, suffix)[j].key, suffix)
      {
        GroupMembersStep(spec, suffix, j);
      }
    }
  }

  lemma GroupMembersStep(spec: Specification, suffix: string, j: nat)
    requires Groupable(spec) && spec != [] && Groupable(spec[..|spec| - 1])
    requires j < |GroupBy(spec, suffix)|
    requires j < |GroupBy(spec[..|spec| - 1], suffix)| ==>
               GroupBy(spec[..|spec| - 1], suffix)[j].members ==
               Members(spec[..|spec| - 1], GroupBy(spec[..|spec| - 1], suffix)[j].key, suffix)
    ensures GroupBy(spec, suffix)[j].members == Members(spec, GroupBy(spec, suffix)[j].key, suffix)
  {
    var init := spec[..|spec| - 1];
    var f := spec[|spec| - 1];
    var gs := GroupBy(init, suffix);
    var k := GroupKey(f, suffix);
    var r := GroupBy(spec, suffix);
    assert r == AddToGroup(gs, k, f);
    var key := r[j].key;
    MembersSnoc(spec, key, suffix);
    if j < |gs| {
      assert Keys(r)[j] == Keys(gs)[j];
    } else {
      assert k !in Keys(gs) && key == k;
      NewKeyNoMembers(init, suffix, k);
    }
  }

  lemma MembersSnoc(spec: Specification, k: string, suffix: string)
    requires Groupable(spec) && spec != []
    ensures Groupable(spec[..|spec| - 1])
    ensures Members(spec, k, suffix) ==
            Members(spec[..|spec| - 1], k, suffix) + (if GroupKey(spec[|spec| - 1], suffix) == k then [spec[|spec| - 1]] else [])
  {
  }

  /** No feature has a key that no group has. */
  lemma NewKeyNoMembers(spec: Specification, suffix: string, k: string)
    requires Groupable(spec) && k !in Keys(GroupBy(spec, suffix))
    ensures Members(spec, k, suffix) == []
  {
    GroupOrder(spec, suffix);
    if Members(spec, k, suffix) != [] {
      var g := Members(spec, k, suffix)[0];
      MembersIff(spec, k, suffix);
      KeyInKeySeq(spec, suffix, g);
    }
  }

  lemma KeyInKeySeq(spec: Specification, suffix: string, g: Feature)
    requires Groupable(spec) && g in spec
    ensures GroupKey(g, suffix) in KeySeq(spec, suffix)
  {
    var i :| 0 <= i < |spec| && spec[i] == g;
    assert KeySeq(spec, suffix)[i] == GroupKey(g, suffix);
  }

  /** Every feature lands in exactly one group: the one with its key. */
  lemma ExactlyOneGroup(spec: Specification, suffix: string, f: Feature)
    requires Groupable(spec) && f in spec
    ensures exists j :: 0 <= j < |GroupBy(spec, suffix)| && f in GroupBy(spec, suffix)[j].members
    ensures forall j1, j2 ::
              0 <= j1 < |GroupBy(spec, suffix)| && 0 <= j2 < |GroupBy(spec, suffix)| &&
              f in GroupBy(spec, suffix)[j1].members && f in GroupBy(spec, suffix)[j2].members
              ==> j1 == j2
  {
    var j := GroupOf(spec, suffix, f);
    forall j1, j2 | 0 <= j1 < |GroupBy(spec, suffix)| && 0 <= j2 < |GroupBy(spec, suffix)|
                    && f in GroupBy(spec, suffix)[j1].members && f in GroupBy(spec, suffix)[j2].members
      ensures j1 == j2
    {
      SameGroup(spec, suffix, f, j1, j2);
    }
  }

  /** The group a feature of the specification lands in. */
  lemma GroupOf(spec: Specification, suffix: string, f: Feature) returns (j: nat)
    requires Groupable(spec) && f in spec
    ensures j < |GroupBy(spec, suffix)| && f in GroupBy(spec, suffix)[j].members
  {
    j := GroupWithKey(spec, suffix, f);
    GroupMembers(spec, suffix);
    assert GroupBy(spec, suffix)[j].members == Members(spec, GroupKey(f, suffix), suffix);
    MembersIff(spec, GroupKey(f, suffix), suffix);
  }

  /** The group whose key is the key of a feature of the specification. */
  lemma GroupWithKey(spec: Specification, suffix: string, f: Feature) returns (j: nat)
    requires Groupable(spec) && f in spec
    ensures HasResourceSegment(f.endpoint)
    ensures j < |GroupBy(spec, suffix)| && GroupBy(spec, suffix)[j].key == GroupKey(f, suffix)
  {
    var r := GroupBy(spec, suffix);
    GroupOrder(spec, suffix);
    KeyInKeySeq(spec, suffix, f);
    assert GroupKey(f, suffix) in Keys(r);
    j :| 0 <= j < |r| && Keys(r)[j] == GroupKey(f, suffix);
  }

  lemma SameGroup(spec: Specification, suffix: string, f: Feature, j1: nat, j2: nat)
    requires Groupable(spec) && j1 < |GroupBy(spec, suffix)| && j2 < |GroupBy(spec, suffix)|
    requires f in GroupBy(spec, suffix)[j1].members && f in GroupBy(spec, suffix)[j2].members
    ensures j1 == j2
  {
    InGroupHasKey(spec, suffix, f, j1);
    InGroupHasKey(spec, suffix, f, j2);
    assert Keys(GroupBy(spec, suffix))[j1] == Keys(GroupBy(spec, suffix))[j2];
  }

  /** A member of a group has the group's key. */
  lemma InGroupHasKey(spec: Specification, suffix: string, f: Feature, j: nat)
    requires Groupable(spec) && j < |GroupBy(spec, suffix)| && f in GroupBy(spec, suffix)[j].members
    ensures HasResourceSegment(f.endpoint) && GroupBy(spec, suffix)[j].key == GroupKey(f, suffix)
  {
    GroupMembers(spec, suffix);
    assert f in Members(spec, GroupBy(spec, suffix)[j].key, suffix);
    MembersIff(spec, GroupBy(spec, suffix)[j].key, suffix);
  }

  /** A group sequence with `suffix` appended to every key. */
  function WithSuffix(gs: seq<Group>, suffix: string): (r: seq<Group>)
    ensures |r| == |gs|
    ensures forall j :: 0 <= j < |gs| ==> r[j] == Group(gs[j].key + suffix, gs[j].members)
  {
    seq(|gs|, j requires 0 <= j < |gs| => Group(gs[j].key + suffix, gs[j].members))
  }

  /** Appending the same suffix keeps distinct keys distinct. */
  lemma SuffixCancel(a: string, b: string, suffix: string)
    ensures a + suffix == b + suffix <==> a == b
  {
    if a + suffix == b + suffix {
      assert |a| == |b|;
      assert (a + suffix)[..|a|] == a;
      assert (b + suffix)[..|b|] == b;
    }
  }

  lemma KeyInWithSuffix(gs: seq<Group>, k: string, suffix: string)
    ensures k + suffix in Keys(WithSuffix(gs, suffix)) <==> k in Keys(gs)
  {
    var ws := WithSuffix(gs, suffix);
    if k + suffix in Keys(ws) {
      var j :| 0 <= j < |ws| && Keys(ws)[j] == k + suffix;
      SuffixCancel(gs[j].key, k, suffix);
      assert Keys(gs)[j] == k;
    }
    if k in Keys(gs) {
      var j :| 0 <= j < |gs| && Keys(gs)[j] == k;
      assert Keys(ws)[j] == k + suffix;
    }
  }

  /** Adding a feature commutes with suffixing the keys. */
  lemma AddToGroupWithSuffix(gs: seq<Group>, k: string, f: Feature, suffix: string)
    requires Distinct(Keys(gs)) && Distinct(Keys(WithSuffix(gs, suffix)))
    ensures AddToGroup(WithSuffix(gs, suffix), k + suffix, f) == WithSuffix(AddToGroup(gs, k, f), suffix)
  {
    var ws := WithSuffix(gs, suffix);
    var l := AddToGroup(ws, k + suffix, f);
    var a := AddToGroup(gs, k, f);
    var r := WithSuffix(a, suffix);
    KeyInWithSuffix(gs, k, suffix);
    assert |Keys(l)| == |Keys(a)|;
    forall j | 0 <= j < |l| ensures l[j] == r[j] {
      assert Keys(l)[j] == l[j].key && Keys(a)[j] == a[j].key;
      if j < |gs| {
        SuffixCancel(gs[j].key, k, suffix);
        assert Keys(ws)[j] == ws[j].key && Keys(gs)[j] == gs[j].key;
      }
    }
  }

  /** Grouping under any suffix is grouping by bare resource with the suffix
      appended: the three groupings of the generator have the same groups,
      in the same order, with the same members. */
  lemma {:induction false} GroupBySuffix(spec: Specification, suffix: string)
    requires Groupable(spec)
    ensures GroupBy(spec, suffix) == WithSuffix(GroupBy(spec, ""), suffix)
  {
    if spec != [] {
      var init := spec[..|spec| - 1];
      var f := spec[|spec| - 1];
      GroupBySuffix(init, suffix);
      var gs := GroupBy(init, "");
      assert GroupKey(f, "") == SegmentResource(f.endpoint);
      var ws := WithSuffix(gs, suffix);
      assert Keys(ws) == Keys(GroupBy(init, suffix));
      AddToGroupWithSuffix(gs, SegmentResource(f.endpoint), f, suffix);
    }
  }

  /** Every key ends in the suffix it was built with. */
  lemma KeysEndWithSuffix(spec: Specification, suffix: string)
    requires Groupable(spec)
    ensures forall j :: 0 <= j < |GroupBy(spec, suffix)| ==>
              var k := GroupBy(spec, suffix)[j].key;
              |k| >= |suffix| && k[|k| - |suffix|..] == suffix
  {
    GroupBySuffix(spec, suffix);
    forall j | 0 <= j < |GroupBy(spec, suffix)|
      ensures var k := GroupBy(spec, suffix)[j].key;
              |k| >= |suffix| && k[|k| - |suffix|..] == suffix
    {
      EndsWith(GroupBy(spec, "")[j].key, suffix);
    }
  }

  lemma EndsWith(x: string, suffix: string)
    ensures (x + suffix)[|x + suffix| - |suffix|..] == suffix
  {
  }

  /** The bare keys are capitalized path segments. */
  lemma ResourceKeysCapitalized(spec: Specification, j: nat)
    requires Groupable(spec) && j < |GroupBy(spec, "")|
    ensures forall i :: 1 <= i < |GroupBy(spec, "")[j].key| ==> !IsUpper(GroupBy(spec, "")[j].key[i])
    ensures exists x :: GroupBy(spec, "")[j].key == Capitalize(x)
  {
    var r := GroupBy(spec, "");
    GroupOrder(spec, "");
    assert Keys(r)[j] in KeySeq(spec, "");
    var i :| 0 <= i < |spec| && KeySeq(spec, "")[i] == r[j].key;
    var x := Split(spec[i].endpoint, '/')[1];
    assert r[j].key == Capitalize(x) + "" == Capitalize(x);
    CapitalizeShape(x);
  }
}

=== FILE: ordered_maps.dfy ===
/** Python's insertion-ordered `dict` under `d[k] = v`: a new key goes to the
    end, an existing key keeps its position and has its value overwritten. */
module OrderedMaps {
  import opened Seqs

  datatype OrderedMap<K(==,!new), V> = OrderedMap(keys: seq<K>, values: map<K, V>)
  {
    /** The key sequence lists every key of the map exactly once. */
    predicate Valid() {
      && Distinct(keys)
      && (forall k :: k in values ==> k in keys)
      && (forall i :: 0 <= i < |keys| ==> keys[i] in values)
    }
  }

  function Empty<K(==,!new), V>(): (m: OrderedMap<K, V>)
    ensures m.Valid() && m.keys == []
  {
    OrderedMap([], map[])
  }

  /** Python `d[k] = v`. */
  function Put<K(==,!new), V>(m: OrderedMap<K, V>, k: K, v: V): (r: OrderedMap<K, V>)
    requires m.Valid()
    ensures r.Valid()
    ensures k in r.values && r.values[k] == v
    ensures forall k' :: k' != k ==> (k' in r.values <==> k' in m.values)
    ensures forall k' :: k' != k && k' in m.values ==> r.values[k'] == m.values[k']
    ensures k in m.keys ==> r.keys == m.keys
    ensures k !in m.keys ==> r.keys == m.keys + [k]
  {
    if k in m.keys then OrderedMap(m.keys, m.values[k := v])
    else OrderedMap(m.keys + [k], m.values[k := v])
  }

  function EntryKeys<K, V>(es: seq<(K, V)>): (ks: seq<K>)
    ensures |ks| == |es| && forall i :: 0 <= i < |es| ==> ks[i] == es[i].0
  {
    seq(|es|, i requires 0 <= i < |es| => es[i].0)
  }

  /** True iff entry `i` is the last one with its key. */
  predicate LastWithKey<K(==), V>(es: seq<(K, V)>, i: nat)
    requires i < |es|
  {
    forall j :: i < j < |es| ==> es[j].0 != es[i].0
  }

  /** The dictionary built by `d[k] = v` for every entry in order, starting
      from an empty one. */
  function FromEntries<K(==,!new), V>(es: seq<(K, V)>): (r: OrderedMap<K, V>)
    ensures r.Valid()
    ensures forall k :: k in r.values <==> k in EntryKeys(es)
  {
    if es == [] then Empty()
    else
      var init := es[..|es| - 1];
      assert EntryKeys(es) == EntryKeys(init) + [es[|es| - 1].0];
      Put(FromEntries(init), es[|es| - 1].0, es[|es| - 1].1)
  }

  /** Keys keep the position of their first insertion. */
  lemma {:induction false} FromEntriesKeyOrder<K(!new), V>(es: seq<(K, V)>)
    ensures FromEntries(es).keys == FirstOccurrences(EntryKeys(es))
  {
    if es != [] {
      var init := es[..|es| - 1];
      FromEntriesKeyOrder(init);
      assert EntryKeys(es)[..|es| - 1] == EntryKeys(init);
    }
  }

  /** The value stored under a key is the one of the last entry with that
      key: later writes win. */
  lemma {:induction false} FromEntriesLastWins<K(!new), V>(es: seq<(K, V)>, i: nat)
    requires i < |es| && LastWithKey(es, i)
    ensures es[i].0 in FromEntries(es).values && FromEntries(es).values[es[i].0] == es[i].1
  {
    if i < |es| - 1 {
      var init := es[..|es| - 1];
      assert es[i] == init[i];
      assert LastWithKey(init, i);
      FromEntriesLastWins(init, i);
    }
  }
}

=== FILE: seqs.dfy ===
/** Generic facts about sequences used by the name-derivation model: the
    position of the first occurrence of a value, and the de-duplication that
    keeps every value at its first position (the key order of an
    insertion-ordered dictionary). */
module Seqs {

  /** True iff no value occurs twice in `xs`. */
  predicate Distinct<T(==)>(xs: seq<T>) {
    forall i, j :: 0 <= i < j < |xs| ==> xs[i] != xs[j]
  }

  /** The index of the first occurrence of `x` in `xs`. */
  function FirstIndex<T(==)>(xs: seq<T>, x: T): (i: nat)
    requires x in xs
    ensures i < |xs| && xs[i] == x
    ensures x !in xs[..i]
  {
    if xs[0] == x then 0 else 1 + FirstIndex(xs[1..], x)
  }

  lemma FirstIndexAppend<T>(xs: seq<T>, y: T, x: T)
    requires x in xs
    ensures x in xs + [y] && FirstIndex(xs + [y], x) == FirstIndex(xs, x)
  {
    var i := FirstIndex(xs, x);
    assert (xs + [y])[i] == x;
    assert (xs + [y])[..i] == xs[..i];
    FirstIndexUnique(xs + [y], x, i);
  }

  /** Where the elements of `a`, `b` and `c` sit in `a + b + c`. */
  lemma ConcatIndex<T>(a: seq<T>, b: seq<T>, c: seq<T>)
    ensures forall i :: 0 <= i < |a| ==> (a + b + c)[i] == a[i]
    ensures forall i :: 0 <= i < |b| ==> (a + b + c)[|a| + i] == b[i]
    ensures forall i :: 0 <= i < |c| ==> (a + b + c)[|a| + |b| + i] == c[i]
  {
  }

  /** Any index holding `x` with no earlier `x` is the first index. */
  lemma FirstIndexUnique<T>(xs: seq<T>, x: T, i: nat)
    requires i < |xs| && xs[i] == x && x !in xs[..i]
    ensures FirstIndex(xs, x) == i
  {
  }

  /** `xs` with every repeated value dropped, each value kept at the position
      of its first occurrence. */
  function FirstOccurrences<T(==,!new)>(xs: seq<T>): (r: seq<T>)
    ensures Distinct(r)
    ensures forall x :: x in r <==> x in xs
    ensures forall a, b :: 0 <= a < b < |r| ==> FirstIndex(xs, r[a]) < FirstIndex(xs, r[b])
  {
    if xs == [] then []
    else
      var init := xs[..|xs| - 1];
      var last := xs[|xs| - 1];
      var d := FirstOccurrences(init);
      assert xs == init + [last];
      forall x | x in init ensures x in xs && FirstIndex(xs, x) == FirstIndex(init, x) {
        FirstIndexAppend(init, last, x);
      }
      if last in d then d
      else
        FirstIndexUnique(xs, last, |xs| - 1);
        d + [last]
  }

  /** Appending a value opens a new slot only for a value not yet seen. */
  lemma FirstOccurrencesAppend<T(!new)>(xs: seq<T>, x: T)
    ensures FirstOccurrences(xs + [x]) == if x in xs then FirstOccurrences(xs) else FirstOccurrences(xs) + [x]
  {
    assert (xs + [x])[..|xs|] == xs;
  }
}

=== FILE: strings.dfy ===
/** The Python string operations the generators apply to endpoints and
    names: `split` on one character and its inverse `join`, `strip` of one
    character, `replace` of a character or of a substring, and the decimal
    rendering of an index. */
module Strings {
  import opened Seqs

  /** Python `sep.join(parts)`. */
  function Join(parts: seq<string>, sep: char): string
    requires |parts| >= 1
  {
    if |parts| == 1 then parts[0] else parts[0] + [sep] + Join(parts[1..], sep)
  }

  /** Python `s.split(sep)` for a one-character separator: the pieces between
      separators, empty pieces included, so there is always at least one. */
  function Split(s: string, sep: char): (parts: seq<string>)
    ensures |parts| >= 1
    ensures forall i :: 0 <= i < |parts| ==> sep !in parts[i]
    ensures Join(parts, sep) == s
    decreases |s|
  {
    if sep !in s then [s]
    else
      var i := FirstIndex(s, sep);
      var rest := Split(s[i + 1..], sep);
      assert ([s[..i]] + rest)[1..] == rest;
      assert s == s[..i] + [sep] + s[i + 1..];
      [s[..i]] + rest
  }

  /** Splitting undoes joining, as long as no piece holds the separator. */
  lemma {:induction false} SplitJoin(parts: seq<string>, sep: char)
    requires |parts| >= 1
    requires forall i :: 0 <= i < |parts| ==> sep !in parts[i]
    ensures Split(Join(parts, sep), sep) == parts
  {
    if |parts| > 1 {
      var p := parts[0];
      var j := Join(parts[1..], sep);
      var s := p + [sep] + j;
      assert Join(parts, sep) == s;
      assert s[|p|] == sep && s[..|p|] == p;
      FirstIndexUnique(s, sep, |p|);
      assert s[|p| + 1..] == j;
      assert Split(s, sep) == [p] + Split(j, sep);
      SplitJoin(parts[1..], sep);
      assert parts == [p] + parts[1..];
    }
  }

  /** Splitting a string that ends with the separator yields one more, empty,
      piece. */
  lemma {:induction false} SplitAppendSep(s: string, sep: char)
    ensures Split(s + [sep], sep) == Split(s, sep) + [""]
    decreases |s|
  {
    var t := s + [sep];
    if sep !in s {
      FirstIndexUnique(t, sep, |s|);
      assert t[..|s|] == s && t[|s| + 1..] == "";
      assert Split(t, sep) == [s] + Split("", sep);
      assert Split("", sep) == [""];
    } else {
      var i := FirstIndex(s, sep);
      assert t[i] == sep && t[..i] == s[..i];
      FirstIndexUnique(t, sep, i);
      assert t[i + 1..] == s[i + 1..] + [sep];
      assert Split(t, sep) == [s[..i]] + Split(s[i + 1..] + [sep], sep);
      assert Split(s, sep) == [s[..i]] + Split(s[i + 1..], sep);
      SplitAppendSep(s[i + 1..], sep);
      AppendAssoc([s[..i]], Split(s[i + 1..], sep), [""]);
    }
  }

  lemma AppendAssoc<T>(a: seq<T>, b: seq<T>, c: seq<T>)
    ensures a + (b + c) == (a + b) + c
  {
  }

  /** A string without the separator splits into itself. */
  lemma SplitNoSep(s: string, sep: char)
    requires forall i :: 0 <= i < |s| ==> s[i] != sep
    ensures Split(s, sep) == [s]
  {
    assert sep !in s;
  }

  /** Splitting a string that starts with the separator yields an empty first
      piece. */
  lemma SplitPrependSep(s: string, sep: char)
    ensures Split([sep] + s, sep) == [""] + Split(s, sep)
  {
    var t := [sep] + s;
    FirstIndexUnique(t, sep, 0);
    assert t[1..] == s;
  }

  /** A separator followed by a word without one splits into an empty
      piece and the word. */
  lemma SplitLeadingSep(w: string, sep: char)
    requires forall i :: 0 <= i < |w| ==> w[i] != sep
    ensures Split([sep] + w, sep) == ["", w]
  {
    SplitPrependSep(w, sep);
    SplitNoSep(w, sep);
  }

  /** Two separator-free words joined by the separator split back into the
      two words. */
  lemma SplitTwo(a: string, b: string, sep: char)
    requires forall i :: 0 <= i < |a| ==> a[i] != sep
    requires forall i :: 0 <= i < |b| ==> b[i] != sep
    ensures Split(a + [sep] + b, sep) == [a, b]
  {
    var t := a + [sep] + b;
    assert t[|a|] == sep && t[..|a|] == a;
    FirstIndexUnique(t, sep, |a|);
    assert t[|a| + 1..] == b;
    SplitNoSep(b, sep);
  }

  /** The first piece of a split is unchanged by appending separators after
      a non-empty prefix. */
  lemma SplitHeadOfPrefix(t: string, s: string, sep: char)
    requires |t| > 0 && |t| <= |s| && t == s[..|t|]
    requires forall k :: |t| <= k < |s| ==> s[k] == sep
    ensures Split(t, sep)[0] == Split(s, sep)[0]
  {
    if sep in t {
      var i := FirstIndex(t, sep);
      assert s[i] == sep && s[..i] == t[..i];
      FirstIndexUnique(s, sep, i);
    } else if |t| < |s| {
      assert s[|t|] == sep && s[..|t|] == t;
      FirstIndexUnique(s, sep, |t|);
    } else {
      assert s == t;
    }
  }

  /** Python `s.lstrip(c)`: the longest suffix that does not start with `c`,
      everything before it being `c`. */
  function StripLeft(s: string, c: char): (r: string)
    ensures |r| <= |s| && r == s[|s| - |r|..]
    ensures forall k :: 0 <= k < |s| - |r| ==> s[k] == c
    ensures |r| > 0 ==> r[0] != c
  {
    if |s| > 0 && s[0] == c then StripLeft(s[1..], c) else s
  }

  /** Python `s.rstrip(c)`: the longest prefix that does not end with `c`,
      everything after it being `c`. */
  function StripRight(s: string, c: char): (r: string)
    ensures |r| <= |s| && r == s[..|r|]
    ensures forall k :: |r| <= k < |s| ==> s[k] == c
    ensures |r| > 0 ==> r[|r| - 1] != c
  {
    if |s| > 0 && s[|s| - 1] == c then StripRight(s[..|s| - 1], c) else s
  }

  /** How many copies of `c` open `s`. */
  function LeadingCount(s: string, c: char): (n: nat)
    ensures n <= |s|
  {
    |s| - |StripLeft(s, c)|
  }

  /** Python `s.strip(c)`: the part of `s` left once `c` is removed from both
      ends, and from nowhere else. */
  function Strip(s: string, c: char): (r: string)
    ensures LeadingCount(s, c) + |r| <= |s|
    ensures r == s[LeadingCount(s, c)..LeadingCount(s, c) + |r|]
    ensures forall k :: 0 <= k < LeadingCount(s, c) ==> s[k] == c
    ensures forall k :: LeadingCount(s, c) + |r| <= k < |s| ==> s[k] == c
    ensures |r| > 0 ==> r[0] != c && r[|r| - 1] != c
  {
    var r := StripRight(StripLeft(s, c), c);
    StripShape(s, c, r);
    r
  }

  lemma StripShape(s: string, c: char, r: string)
    requires r == StripRight(StripLeft(s, c), c)
    ensures LeadingCount(s, c) + |r| <= |s|
    ensures r == s[LeadingCount(s, c)..LeadingCount(s, c) + |r|]
    ensures forall k :: 0 <= k < LeadingCount(s, c) ==> s[k] == c
    ensures forall k :: LeadingCount(s, c) + |r| <= k < |s| ==> s[k] == c
    ensures |r| > 0 ==> r[0] != c && r[|r| - 1] != c
  {
    var l := StripLeft(s, c);
    InnerSlice(s, l, r, c, LeadingCount(s, c));
    if |r| > 0 {
      assert r[0] == l[0];
    }
  }

  /** Stripping a character twice is stripping it once. */
  lemma StripIdempotent(s: string, c: char)
    ensures Strip(Strip(s, c), c) == Strip(s, c)
  {
    var r := Strip(s, c);
    assert StripLeft(r, c) == r;
    assert StripRight(r, c) == r;
  }

  /** A prefix `r` of the suffix `l == s[n..]`, followed in `l` only by
      copies of `c`, sits at `n` in `s` and is followed there by copies of
      `c` only. */
  lemma InnerSlice(s: string, l: string, r: string, c: char, n: nat)
    requires n <= |s| && l == s[n..]
    requires |r| <= |l| && r == l[..|r|]
    requires forall k :: |r| <= k < |l| ==> l[k] == c
    ensures n + |r| <= |s| && r == s[n..n + |r|]
    ensures forall k :: n + |r| <= k < |s| ==> s[k] == c
  {
    forall k | n + |r| <= k < |s|
      ensures s[k] == c
    {
      assert s[k] == l[k - n];
    }
  }

  /** Python `s.replace(c, d)` for single characters `c` and `d`. */
  function MapChar(s: string, c: char, d: char): (r: string)
    ensures |r| == |s|
    ensures forall i :: 0 <= i < |s| ==> r[i] == (if s[i] == c then d else s[i])
  {
    seq(|s|, i requires 0 <= i < |s| => if s[i] == c then d else s[i])
  }

  lemma MapCharCons(s: string, c: char, d: char)
    requires |s| > 0
    ensures MapChar(s, c, d) == [if s[0] == c then d else s[0]] + MapChar(s[1..], c, d)
  {
  }

  /** Python `s.replace(c, "")`: every `c` dropped, the rest kept in order
      (the order is `RemoveCharAppend` with `RemoveCharCons`). */
  function RemoveChar(s: string, c: char): (r: string)
    ensures c !in r
    ensures |r| <= |s|
    ensures forall x :: x in r <==> x in s && x != c
  {
    if s == [] then []
    else if s[0] == c then RemoveChar(s[1..], c)
    else [s[0]] + RemoveChar(s[1..], c)
  }

  lemma RemoveCharCons(c: char, t: string, x: char)
    ensures RemoveChar([c] + t, x) == (if c == x then [] else [c]) + RemoveChar(t, x)
  {
    assert ([c] + t)[0] == c && ([c] + t)[1..] == t;
  }

  /** Removing a character distributes over concatenation: what is kept of
      `a` comes before what is kept of `b`. */
  lemma {:induction false} RemoveCharAppend(a: string, b: string, c: char)
    ensures RemoveChar(a + b, c) == RemoveChar(a, c) + RemoveChar(b, c)
  {
    if a != [] {
      assert (a + b)[0] == a[0] && (a + b)[1..] == a[1..] + b;
      RemoveCharAppend(a[1..], b, c);
    } else {
      assert a + b == b;
    }
  }

  /** Removing `x` from a string that starts with at most one character
      `p1` acts on that character on its own. */
  lemma RemoveCharCons2(p1: string, y: string, x: char, p2: string)
    requires |p1| <= 1
    requires p2 == if p1 == [] || p1[0] == x then [] else p1
    ensures RemoveChar(p1 + y, x) == p2 + RemoveChar(y, x)
  {
    if p1 != [] {
      RemoveCharCons(p1[0], y, x);
      assert p1 == [p1[0]];
    } else {
      assert p1 + y == y;
    }
  }

  /** Removing a character that does not occur changes nothing. */
  lemma RemoveAbsent(s: string, c: char)
    requires c !in s
    ensures RemoveChar(s, c) == s
  {
  }

  /** True iff `pat` occurs in `s` starting at position `p`. */
  predicate OccursAt(s: string, pat: string, p: nat) {
    p + |pat| <= |s| && s[p..p + |pat|] == pat
  }

  /** Python `s.replace(pat, rep)` for a non-empty `pat`: every occurrence,
      scanning left to right without overlap, replaced by `rep`. */
  function ReplaceAll(s: string, pat: string, rep: string): (r: string)
    requires |pat| > 0
    ensures (forall p :: 0 <= p < |s| ==> !OccursAt(s, pat, p)) ==> r == s
    decreases |s|
  {
    if |s| < |pat| then s
    else if s[..|pat|] == pat then
      assert OccursAt(s, pat, 0);
      rep + ReplaceAll(s[|pat|..], pat, rep)
    else
      var r := [s[0]] + ReplaceAll(s[1..], pat, rep);
      forall p | 0 <= p < |s| - 1 && OccursAt(s[1..], pat, p) ensures OccursAt(s, pat, p + 1) {
        OccursShift(s, pat, p);
      }
      r
  }

  lemma OccursShift(s: string, pat: string, p: nat)
    requires |s| > 0
    ensures OccursAt(s[1..], pat, p) <==> OccursAt(s, pat, p + 1)
  {
    if p + |pat| <= |s| - 1 {
      assert s[1..][p..p + |pat|] == s[p + 1..p + 1 + |pat|];
    }
  }

  /** When `pat` occurs in `s + pat` only at the very end, replacing it
      rewrites that last occurrence only. */
  lemma {:induction false} ReplaceTrailing(s: string, pat: string, rep: string)
    requires |pat| > 0
    requires forall p :: 0 <= p < |s| ==> !OccursAt(s + pat, pat, p)
    ensures ReplaceAll(s + pat, pat, rep) == s + rep
    decreases |s|
  {
    var t := s + pat;
    if s == [] {
      assert t[..|pat|] == pat && t[|pat|..] == [];
    } else {
      var u := s[1..] + pat;
      assert t[1..] == u;
      assert !OccursAt(t, pat, 0);
      assert t[..|pat|] != pat;
      assert ReplaceAll(t, pat, rep) == [s[0]] + ReplaceAll(u, pat, rep);
      forall p | 0 <= p < |s| - 1 ensures !OccursAt(u, pat, p) {
        OccursShift(t, pat, p);
      }
      ReplaceTrailing(s[1..], pat, rep);
      ConsAppend(s, rep);
    }
  }

  lemma ConsAppend(s: string, t: string)
    requires |s| > 0
    ensures [s[0]] + (s[1..] + t) == s + t
  {
    assert s == [s[0]] + s[1..];
  }

  /** Replacing a pattern in a string that starts with it starts with the
      replacement. */
  lemma ReplaceAllLeading(s: string, pat: string, rep: string)
    requires |pat| > 0 && |pat| <= |s| && s[..|pat|] == pat
    ensures |ReplaceAll(s, pat, rep)| >= |rep| && ReplaceAll(s, pat, rep)[..|rep|] == rep
  {
  }

  predicate IsDigit(c: char) { '0' <= c <= '9' }

  function DigitChar(d: nat): (c: char)
    requires d < 10
    ensures IsDigit(c)
  {
    ('0' as int + d) as char
  }

  function DigitValue(c: char): (d: nat)
    requires IsDigit(c)
    ensures d < 10 && DigitChar(d) == c
  {
    c as int - '0' as int
  }

  /** Python `str(n)` for a natural number. */
  function DecimalString(n: nat): (s: string)
    ensures |s| >= 1
    ensures forall i :: 0 <= i < |s| ==> IsDigit(s[i])
  {
    if n < 10 then [DigitChar(n)] else DecimalString(n / 10) + [DigitChar(n % 10)]
  }

  /** The value of a string of decimal digits. */
  function DecimalValue(s: string): nat
    requires forall i :: 0 <= i < |s| ==> IsDigit(s[i])
  {
    if s == [] then 0
    else DecimalValue(s[..|s| - 1]) * 10 + DigitValue(s[|s| - 1])
  }

  /** Reading back the decimal rendering of `n` gives `n`. */
  lemma {:induction false} DecimalRoundTrip(n: nat)
    ensures DecimalValue(DecimalString(n)) == n
  {
    if n >= 10 {
      var s := DecimalString(n);
      assert s[..|s| - 1] == DecimalString(n / 10);
      DecimalRoundTrip(n / 10);
    }
  }

  /** Distinct numbers have distinct decimal renderings. */
  lemma DecimalInjective(m: nat, n: nat)
    requires DecimalString(m) == DecimalString(n)
    ensures m == n
  {
    DecimalRoundTrip(m);
    DecimalRoundTrip(n);
  }
}
